=== FILE: README.md ===
# A forum server's request core, in Dafny

The system is a small JSON-over-HTTP forum server (`server.js`). It keeps one
in-memory database of users, articles and comments. It routes each request
by method and by a url pattern guessed from the path segments. Fourteen
route handler functions then read or change the database. Articles and comments carry
up-votes and down-votes, and deleting an article also deletes its comments.

This project models that core as pure functions:

- **`Js`** models the JavaScript that the handlers lean on:
  - `undefined` and truthiness;
  - `a || b`;
  - `indexOf`, including -1 when absent;
  - `splice(start, 1)`, including a negative start;
  - `split('/')` and `filter(segment => segment)`;
  - `Number(...)` on an id segment.
- **`Model`** holds the entities. It has the `Store`, which is the database: tombstones are `None`, and the two id counters are part of it. It also has the request payload and the `{status, body}` descriptor.
- **`Voting`** models the shared `upvote`/`downvote` helpers.
- **`Handlers`** holds the route handlers: fourteen functions in the source, twelve here, because the up- and down-vote handlers of an item share one function with a direction argument. Each takes a store and yields the store after the call together with the response.
- **`Router`** models:
  - the routes table;
  - `getRequestRoute`;
  - `requestHandler` minus transport: the OPTIONS preflight answer, the 400 guard for an unknown pattern or method, and dropping the body for GET and DELETE.
- **`Integrity`** holds the cross-reference invariant `Valid`:
  - it states that the cross-references between users, articles and comments resolve, and that every item holds one vote per voter;
  - it holds for the empty database and is kept by every handler, so it holds for every store a running server can reach;
  - every reachable store also keeps each user's article list exactly the user's live articles (`UserArticlesExact`);
  - on a valid store no handler stops on a TypeError, for user names that are not inherited object properties (see "Left out").
- **`Findings`** records the `deleteArticle` bookkeeping bug (see below) and the corrected cascade.
- **`Properties`** holds what a client observes across requests:
  - errors and reads change nothing (for `getArticle` only because the model does not store the `comments` field the source writes onto the article; see "Left out");
  - an unserved url gets a bare 400;
  - created items can be fetched back and deleted ones cannot;
  - repeated updates and votes are harmless.

Three behaviours of the code are easy to misread, and the model follows
the code in each:

- A path of two or more segments that is not a vote route is routed to `/<first>/:id` (or `/users/:username`), whatever its length. So `/articles/1/x/y` reaches `getArticle`, not the 400 guard. `Router.Served` states the rule the code implements, `Router.LongPathRoute` the pattern it lands on, and `Router.DeepArticlePath` the example.
- After deleting article 1, `GET /articles/1` answers 404, not 400, because the id is truthy and the slot holds a tombstone.
- `deleteArticle`'s cascade does not strike the deleted comments from their authors' lists. It is modelled as written; see "Findings".

## Model

| member | source | states |
|---|---|---|
| Js.OrSettles | server.js:182-183 | applying the same `given \|\| field` update twice gives what applying it once gives, and a non-empty field never becomes empty |
| Js.IndexOf | server.js:258 | the result is -1 exactly when the element is absent; otherwise it is the position of its first occurrence |
| Js.SpliceOne | server.js:205 | `splice(start, 1)` removes exactly the element at `start`, or at `len + start` for a negative start, keeping the order of the rest; a start below `-len` removes the first element, a start at or past the end removes nothing |
| Js.RemovePresent | server.js:257-258 | `splice(indexOf(x), 1)` with `x` present removes exactly one copy of `x` and nothing else (as multisets) |
| Js.RemoveAbsent | server.js:205 | with `x` absent, the same idiom removes the LAST element, because `splice(-1, 1)` counts from the end |
| Js.RemoveDistinct | server.js:332-334 | on a duplicate-free list, removing a present id leaves a duplicate-free list holding exactly the other ids |
| Js.PushDistinct | server.js:291-292 | pushing a fresh id keeps a list duplicate-free |
| Js.Split | server.js:441 | `split('/')` yields at least one piece and no piece contains '/' |
| Js.JoinSplit | server.js:441 | splitting on '/' loses nothing: joining the pieces back with '/' gives the original url |
| Js.NonEmpty | server.js:441-443 | `filter(segment => segment)` keeps only non-empty pieces, each taken from the input, and keeps every non-empty piece |
| Js.NonEmptyConcat | server.js:441-443 | the filter keeps order and count: filtering a concatenation filters each part and concatenates the results |
| Js.SegmentsOfPath | server.js:441-443 | reading the segments of a path built from non-empty, slash-free segments gives those segments back |
| Js.NumberOfDecimal | server.js:121-123 | `Number` applied to the decimal spelling of an id gives the id back |
| Voting.Upvote | server.js:256-264 | after an upvote the voter is listed among the up-votes, appended at the end only if absent; when present among the down-votes, exactly the first copy is cut out in place with the rest in order, and otherwise the down-votes are untouched |
| Voting.Downvote | server.js:266-274 | a downvote is an upvote with the two lists swapped, so it has the mirrored effect |
| Voting.UpvoteKeepsOthers | server.js:256-264 | an upvote never changes any other voter's membership or count in either list |
| Voting.UpvoteSettles | server.js:256-264 | a voter listed at most once across both lists ends up an up-voter and not a down-voter |
| Voting.UpvoteIdempotent | server.js:256-264 | upvoting twice equals upvoting once, provided the voter holds at most one down-vote |
| Voting.UpvoteNotIdempotentOnDuplicates | server.js:257-258 | with the voter listed twice among the down-votes, a second upvote still changes the item, because each call withdraws only one copy |
| Voting.UpvoteKeepsExclusive | server.js:256-264 | one vote per voter (no duplicates in a list, nobody in both lists) survives an upvote |
| Voting.DownvoteSettles | server.js:266-274 | the mirror of UpvoteSettles |
| Voting.DownvoteIdempotent | server.js:266-274 | the mirror of UpvoteIdempotent |
| Voting.DownvoteKeepsExclusive | server.js:266-274 | the mirror of UpvoteKeepsExclusive |
| Voting.VoteFlips | server.js:256-274 | on an item with one vote per voter, voting the other way flips the voter's state in one call: they end up in the new list only |
| Voting.CastIdempotent | server.js:256-274 | on an item with one vote per voter, repeating the same vote (either direction) changes nothing |
| Voting.CastKeepsExclusive | server.js:256-274 | one vote per voter survives a vote in either direction |
| Voting.DistinctOccurrences | server.js:257-258 | in a duplicate-free list a voter occurs at most once |
| Handlers.PathId | server.js:121-123 | the id the handlers read is non-zero only when the url has a second non-empty segment made of digits |
| Handlers.RawPathId | server.js:326 | `deleteComment`'s reading is non-zero only when the third raw `split('/')` piece exists and is made of digits |
| Handlers.ResolveAppend | server.js:59-64 | resolving an id list that grew by a `push` resolves the old list and then the new id, for articles and for comments |
| Handlers.ResolveFrame | server.js:128-130 | resolution depends only on the table it reads |
| Handlers.GetUser | server.js:51-78 | never writes; 200 exactly when the user exists, with the resolved lists; 404 exactly when a name is given but unknown; 400 exactly when the url has no second segment |
| Handlers.GetOrCreateUser | server.js:80-101 | an existing user is returned with 200 and the store unchanged; a truthy new name creates exactly one empty user with 201; otherwise 400 with no change |
| Handlers.Descending | server.js:112-114 | the ordering the listing uses: every id exactly once, strictly decreasing |
| Handlers.GetArticles | server.js:103-118 | never writes; lists exactly the live articles; strictly by descending id whenever articles carry their own key |
| Handlers.GetArticle | server.js:120-141 | never writes; 200 with the article and its resolved comments exactly when the article is live; 404 exactly for a non-zero id without a live article; 400 exactly for id 0 |
| Handlers.CreateArticle | server.js:143-167 | 201 exactly when title, url and an existing owner are given; the new article gets the counter's id, is stored under it and is appended to its owner's list, and the counter moves on by one; no other user changes; otherwise 400 and no change |
| Handlers.UpdateArticle | server.js:169-190 | 400 when the id is 0 or the body has no `article` object (an empty object is accepted); 404 for a missing article; otherwise only title and url change, each only when a truthy value is sent |
| Handlers.DropOne | server.js:202-205 | one step of the delete cascade tombstones the comment and touches only its author's record: the username and article list stay, and the comment list loses the element at `indexOf(articleId)` |
| Handlers.DropComments | server.js:201-206 | the cascade tombstones exactly the listed comments, leaves articles, counters and every user's article list alone, and leaves untouched any user who wrote none of them |
| Handlers.DropCommentsWithdraws | server.js:201-206 | as written, each user's comment list goes through one `splice(indexOf(articleId), 1)` per deleted comment of theirs |
| Handlers.Disown | server.js:207-208 | striking the article from its owner's list changes only that user's article list |
| Handlers.DeleteArticle | server.js:192-215 | a missing article is a 400 with no change; otherwise 204, the article and exactly its listed comments are tombstoned, the owner's article list loses the entry at `indexOf(id)` and no other article list changes, every comment list goes through one `splice(indexOf(id), 1)` per deleted comment of its user, and a user who owns nothing and wrote none of them is unchanged |
| Handlers.Cascade | server.js:199-208 | the delete's effect on articles, comments, counters and the set of users |
| Handlers.CascadeUsers | server.js:199-208 | the delete's effect on each user's two lists |
| Handlers.VoteArticle | server.js:217-254 | 200 exactly when both the article and the voter exist; only that article's votes change; otherwise 400 and no change |
| Handlers.CreateComment | server.js:276-301 | 201 exactly when body, author and a live article are given; the comment gets the counter's id and is appended to both the article's list and the author's list; otherwise 400 and no change |
| Handlers.UpdateComment | server.js:303-323 | 400 for id 0 or a body with no `comment` object (an empty object is accepted); 404 for a missing comment; otherwise only the body changes, and only to a truthy value |
| Handlers.DeleteComment | server.js:325-343 | 404 with no change unless the comment and its author exist; otherwise 204, the comment is tombstoned, each of its author's list and its article's list goes through one `splice(indexOf(id), 1)` -- which strikes the LAST entry when the id is missing, as it can be after the cascade bug below -- and nothing else changes |
| Handlers.VoteComment | server.js:345-383 | 200 exactly when both the comment and the voter exist; only that comment's votes change; otherwise 400 and no change |
| Router.PatternsAreRoutes | server.js:14-49 | the table registers exactly the ten patterns |
| Router.GetRequestRoute | server.js:440-454 | the pattern is one of the table's exactly when the url's segments have one of the shapes in `Served` |
| Router.Lookup | server.js:413-416 | the guard lets a request through only for a url whose segments have one of the shapes in `Served` and a method the pattern's row lists |
| Router.Run | server.js:419-431 | no handler lowers a counter or removes a key from any map: deletion only tombstones |
| Router.Dispatch | server.js:393-438 | OPTIONS answers 200 with no change; an unregistered pattern or method answers a bare 400 with no change; a registered one runs the handler the table names, with no body for GET and DELETE; counters never decrease and no entity disappears from its map |
| Router.UsersRow | server.js:15-17 | on `/users` only POST is served, by `getOrCreateUser` |
| Router.UserRow | server.js:18-20 | on `/users/:username` only GET is served, by `getUser` |
| Router.ArticlesRow | server.js:21-24 | on `/articles` GET lists and POST creates |
| Router.ArticleRow | server.js:25-29 | on `/articles/:id` GET, PUT and DELETE are served, by `getArticle`, `updateArticle` and `deleteArticle` |
| Router.ArticleUpvoteRow | server.js:30-32 | only PUT on an article's upvote url |
| Router.ArticleDownvoteRow | server.js:33-35 | only PUT on an article's downvote url |
| Router.CommentsRow | server.js:36-38 | on `/comments` only POST is served |
| Router.CommentRow | server.js:39-42 | on `/comments/:id` PUT and DELETE are served, and GET is not |
| Router.CommentUpvoteRow | server.js:43-45 | only PUT on a comment's upvote url |
| Router.CommentDownvoteRow | server.js:46-48 | only PUT on a comment's downvote url |
| Router.UsersRequests | server.js:14-17 | `POST /users` reaches `getOrCreateUser`; `GET /users` gets the 400 |
| Router.ArticlesRequests | server.js:21-24 | `GET /articles` lists, `POST /articles` creates, `PUT /articles` gets the 400 |
| Router.CommentsRequests | server.js:36-38 | `POST /comments` creates; `GET /comments` gets the 400 |
| Router.UserRequests | server.js:18-20 | `/users/<name>` is served for GET only, by `getUser`, which reads `name` back |
| Router.ArticleRequests | server.js:25-35 | `/articles/<n>` and its vote urls reach the handlers the table names, and other methods get the 400 |
| Router.CommentRequests | server.js:39-48 | `/comments/<n>` and its vote urls reach the handlers the table names; there is no GET for one comment |
| Router.LongPathRoute | server.js:447-453 | a path of two or more segments whose third is not a vote lands on `/<first>/:id`, or `/users/:username` for users, however long it is |
| Router.DeepArticlePath | server.js:413-416 | `GET /articles/1/x/y` passes the guard and reaches `getArticle`, which reads id 1 |
| Router.OneSegmentRoute | server.js:445-446 | one segment gives a known pattern exactly for `users`, `articles` and `comments` |
| Router.VoteRoute | server.js:447-448 | a vote route is known exactly for articles and comments |
| Router.ItemRoute | server.js:451-452 | an `:id` route is known exactly for articles and comments |
| Router.ItemUrlSegments | server.js:441-443 | the url `/<resource>/<n>[/<action>]` has exactly the segments resource, n and action, and `split('/')` gives them after one empty piece |
| Router.ItemUrlRoutes | server.js:121-123 | that url routes to `/<resource>/:id[/<action>]`, and both id readers (filtered and raw) read `n` from it |
| Integrity.EmptyStoreValid | server.js:6-12 | the empty database satisfies the invariant |
| Integrity.ValidCompletes | server.js:201-208 | on a valid store the delete cascade and `deleteComment`'s article lookup never meet a missing record |
| Integrity.GetOrCreateUserKeepsValid | server.js:80-101 | creating a user keeps the invariant |
| Integrity.CreateArticleKeepsValid | server.js:143-167 | creating an article keeps the invariant |
| Integrity.UpdateArticleKeepsValid | server.js:169-190 | updating an article keeps the invariant |
| Integrity.VoteArticleKeepsValid | server.js:217-254 | voting on an article keeps the invariant |
| Integrity.CreateCommentKeepsValid | server.js:276-301 | creating a comment keeps the invariant |
| Integrity.UpdateCommentKeepsValid | server.js:303-323 | updating a comment keeps the invariant |
| Integrity.VoteCommentKeepsValid | server.js:345-383 | voting on a comment keeps the invariant |
| Integrity.DeleteCommentKeepsValid | server.js:325-343 | deleting a comment keeps the invariant |
| Integrity.DetachCommentKeepsValid | server.js:332-336 | tombstoning a comment and striking it only from its article's list keeps the invariant, whatever happens to user lists |
| Integrity.DeleteArticleEffect | server.js:199-208 | what the delete does to the articles and comments, read through lookups |
| Integrity.TombstoneCascadeKeepsValid | server.js:200-203 | tombstoning an article together with exactly the comments it lists keeps the invariant |
| Integrity.DeleteArticleKeepsValid | server.js:192-215 | deleting an article keeps the invariant |
| Integrity.DispatchKeepsValid | server.js:393-438 | every request, whatever its method, url and parsed body, runs to completion on a valid store and leaves it valid, for user names that are not inherited object properties |
| Integrity.Serve | server.js:393-438 | serving requests one after another from a valid store answers each of them and ends valid, with counters never decreasing |
| Integrity.ReachableStoresValid | server.js:6-12 | every store reachable from the empty database by any request sequence is valid |
| Integrity.CreateArticleKeepsArticlesExact | server.js:157-158 | pushing the new article's id onto its owner's list keeps article lists exact |
| Integrity.DeleteArticleKeepsArticlesExact | server.js:207-208 | the as-written delete keeps article lists exact: only the owner's list changes, losing the deleted id |
| Integrity.DispatchKeepsArticlesExact | server.js:393-438 | every request on a valid store keeps article lists exact |
| Integrity.ReachableArticlesExact | server.js:6-12 | every reachable store has exact article lists |
| Findings.DropOneKeepsExact | server.js:334 | withdrawing the deleted comment's OWN id from its author's list keeps every user's comment list exact |
| Findings.DropCommentsIntended | server.js:201-206 | the corrected cascade tombstones exactly the listed comments and leaves articles, counters and article lists alone |
| Findings.DropCommentsIntendedKeepsExact | server.js:201-206 | the corrected cascade keeps every user's comment list exactly the user's live comments |
| Findings.DeleteArticleIntended | server.js:192-215 | the corrected delete: 400 for a missing article, otherwise 204 |
| Findings.CascadeIntended | server.js:199-208 | the corrected delete tombstones the article and its listed comments, and only the owner's article list changes |
| Findings.CascadeIntendedKeepsExact | server.js:199-208 | the corrected delete keeps comment lists exact |
| Findings.CascadeIntendedKeepsArticlesExact | server.js:207-208 | the delete keeps article lists exact: only the owner loses an entry, the deleted article's id |
| Findings.CascadeIntendedKeepsValid | server.js:199-208 | the corrected delete keeps the invariant |
| Findings.DeleteArticleIntendedKeepsLists | server.js:192-215 | on a valid store with exact user lists, the corrected delete keeps both |
| Findings.IntendedDiffersOnlyInCommentLists | server.js:205 | the corrected and the as-written delete agree on the answer, articles, comments, counters and article lists; they differ only in the users' comment lists |
| Findings.DeleteArticleLosesLiveComment | server.js:205 | on the sample store, the as-written delete leaves alice's list naming only the deleted comment, while her live comment is missing from it |
| Findings.DeleteCommentStrikesLastWhenMissing | server.js:332 | when a live comment's id is missing from its author's list, deleting the comment strikes the author's last entry instead |
| Findings.SampleDeleteAsWritten | server.js:199-208 | on the sample, the as-written delete leaves alice's record naming only comment 2, keeps comment 1 and tombstones comment 2 |
| Findings.DeleteArticleIntendedKeepsLiveComment | server.js:205 | on the same input, the corrected delete leaves alice's list naming her surviving comment, with all lists exact |
| Properties.ErrorsAndReadsChangeNothing | server.js:393-438 | a request answered with a status of 400 or above, any GET and any OPTIONS leave the store exactly as it was (for GET on an article, up to the `comments` field the model does not store) |
| Properties.RunErrorsChangeNothing | server.js:51-383 | every handler validates before it writes: an error status comes with the store untouched, and the three readers never write |
| Properties.GetRoutesRead | server.js:14-49 | every handler the table registers for GET is a reader |
| Properties.UnservedIsBadRequest | server.js:413-416 | a url whose segments fit no pattern gets a bare 400 for any method but OPTIONS, with no handler run |
| Properties.CreateUserTwice | server.js:80-101 | posting the same username twice creates the user once; the second call answers 200 with the stored user and changes nothing |
| Properties.CreatedArticleIsNewest | server.js:143-167 | the article just created has the largest id in use |
| Properties.CreatedArticleIsServed | server.js:120-167 | an article just created can be fetched at `/articles/<id>` with no comments, and heads the listing |
| Properties.NewestHeadsListing | server.js:103-118 | a live article with the largest id comes first in the listing |
| Properties.ListingSorted | server.js:112-114 | on every valid store the listing is strictly newest first |
| Properties.DeletedArticleIsGone | server.js:192-215 | after a delete the article answers 404, is not listed, and no live comment refers to it |
| Properties.UpdateArticleIdempotent | server.js:169-190 | repeating an article update with the same payload gives the same store and answer |
| Properties.ProfileShowsOwnArticles | server.js:51-78 | on a reachable store a user's profile lists live articles of that user only, and every live article the user owns |
| Properties.VoteArticleTwice | server.js:217-254 | on a valid store, repeating a vote on an article changes nothing more |
| Properties.VoteCommentTwice | server.js:345-383 | on a valid store, repeating a vote on a comment changes nothing more |
| Properties.CreatedCommentIsServed | server.js:276-301 | a comment just posted shows up last among its article's comments |
| Properties.UpdateCommentIdempotent | server.js:303-323 | repeating a comment update with the same payload gives the same store and answer |

## Left out

- Persistence (`dbSaveLoad.js`) is not part of this model: the snapshot save after each request and the load at start-up. The model starts from the empty database.
- HTTP transport is left out. This covers reading the body in chunks, CORS headers, and writing `JSON.stringify(body)`. A response is the `{status, body}` pair the handler returns.
- `JSON.parse` of the request body is left out. For POST and PUT it runs in the request's `end` callback with no `try` (server.js:429), so a body that is not JSON -- an empty body included -- throws an uncaught exception that ends the server process and loses the in-memory database. The model receives a parsed `Payload`, and its claims that every request completes are about parsed bodies only.
- The JavaScript object model is left out: prototype keys, keys coerced from non-string values, and aliasing between stored objects and response bodies. The model's users are a map that holds only registered names. In the source `database.users` is a plain object, so a name such as `constructor`, `toString` or `__proto__` finds an inherited property and passes the existence checks. From the empty database, `GET /users/constructor` then throws at server.js:59 (`articleIds` of the inherited value is undefined), and `POST /articles` or `POST /comments` naming that user store the new record and then throw at server.js:158 or 292. Each throw is uncaught, so it ends the server process and loses the in-memory database. Where the model answers 404 or 400 for such a name, the source crashes.
- An undefined username is looked up under no key. JavaScript would look up the key "undefined", which the server can only hold if a client registered that name.
- Ids and counters are unbounded naturals. In the source they are JavaScript numbers, which are IEEE-754 doubles and exact only up to 2^53: `Number` rounds a longer digit string to the nearest double, and `nextArticleId++` and `nextCommentId++` (server.js:148, 282) stop growing at 2^53, after which the source would reuse ids. The model's "the new id is the counter and the counter grows by one" holds of the source only below 2^53.
- Handlers.PathId: `Number(segment)` is modelled for decimal digit strings only, read exactly (no rounding to a double, see above); leading zeros read as the value (`007` is 7). Every other segment reads as 0, including `-5`, `1.5`, `0x10` and digits with surrounding spaces. On those the source may look up a key that exists and answer 404 or 200 where the model answers 400.
- `CommentFields.articleId` is a natural number. A string `articleId` in the body, which the source would store as given, is not modelled.
- Handlers.GetArticle: the source also writes the resolved list onto the stored article, as a `comments` field, which later `GET /articles`, update and vote responses then carry. The model returns it in the response only, so the store is unchanged.
- Properties.ErrorsAndReadsChangeNothing: "any GET leaves the store unchanged" holds of `getArticle` only up to that `comments` field.
- Handlers.GetArticles: the source sorts the live values by `id`; the model lists live keys in descending order. The two agree on every store whose articles carry their own key, which `Valid` guarantees.
- Handlers.DeleteArticle, Handlers.DeleteComment, Router.Run and Router.Dispatch require the records their code dereferences: the comment's author, the article's owner, and a comment's article. The source would throw a TypeError without them. `Integrity.ValidCompletes` shows that every reachable store meets these requirements.
- Voting.UpvoteIdempotent and Voting.DownvoteIdempotent require the voter to hold at most one opposite vote. The source gives no such guarantee on an arbitrary item; Voting.UpvoteNotIdempotentOnDuplicates shows why it is needed.
- Router.Dispatch runs the as-written `deleteArticle`. The corrected cascade lives in `Findings`, next to the proof that the two differ only in the users' comment lists.
- The server's start-up code, `http.createServer` and `listen`, are left out.

## Findings

| source | as written | input that shows it | evidently intended | confidence | as-written member | corrected member |
|---|---|---|---|---|---|---|
| server.js:205 | `userCommentIds.splice(userCommentIds.indexOf(id), 1)`, where `id` is the deleted ARTICLE's id | user alice owns articles 1 and 2; her comment 1 is on article 2 and her comment 2 on article 1; `DELETE /articles/1` | `indexOf(commentId)`, as `deleteComment` does at line 332: each author loses the deleted comment's id | high; not executed | Findings.DeleteArticleLosesLiveComment (on Handlers.DropComments) | Findings.DeleteArticleIntendedKeepsLists (on Findings.DeleteArticleIntended) |

On that input the source strikes comment 1 from alice's list, because it sits at `indexOf(1)`. Comment 1 is still live. Her list keeps comment 2, which has just been tombstoned, so `GET /users/alice` shows `null` among her comments and misses her live one. When the article id is absent from the author's list, `indexOf` yields -1 and `splice(-1, 1)` removes the author's latest comment id instead.

The damage spreads to later requests. Once a live comment's id is missing from its author's list, `deleteComment` of that comment (server.js:332) finds no index and strikes the author's LAST entry. For example, alice owns articles 1 and 2 and has comments 1, 2 and 3 on articles 2, 1 and 2. After `DELETE /articles/1` and then `DELETE /comments/1`, her list is `[2]`: it names the tombstoned comment 2 and misses her live comment 3. `Findings.DeleteCommentStrikesLastWhenMissing` states the mechanism for every store. The corrected cascade keeps every list exact, so `deleteComment` always finds the id.

=== FILE: findings.dfy ===
/**
  The cascade of `deleteArticle` (server.js lines 201-206) withdraws each
  deleted comment from its author's `commentIds` with
  `splice(indexOf(id), 1)`, where `id` is the ARTICLE's id. The comment's
  own id is evidently meant: `deleteComment` (server.js line 334) uses the
  comment id for the same bookkeeping. As written, the author loses some
  other entry -- the one equal to the article id, or else the last one --
  and keeps the deleted comment's id.

  `Handlers.DropComments` models the code as written and the router runs
  it; this module shows an input on which it breaks the users' lists, and
  proves that the corrected cascade keeps them exact.
*/
module Findings {
  import opened Js
  import opened Model
  import opened Handlers
  import opened Integrity
  import Router

  /** Every user's `commentIds` names, once each, exactly the live comments
      the user wrote. */
  ghost predicate UserCommentsExact(s: Store) {
    forall u :: u in s.users ==>
      && Distinct(s.users[u].commentIds)
      && forall x :: x in s.users[u].commentIds <==> AuthoredBy(s, x, u)
  }

  /** The bookkeeping `getUser` relies on: a user's lists are the user's
      live content, so the profile shows no `null` and misses nothing. */
  ghost predicate UserListsExact(s: Store) {
    UserArticlesExact(s) && UserCommentsExact(s)
  }

  // -----------------------------------------------------------------------
  // The corrected cascade
  // -----------------------------------------------------------------------

  /** Tombstoning one live comment and withdrawing ITS id from its author's
      list keeps the comment lists exact. */
  lemma DropOneKeepsExact(s: Store, cid: nat)
    requires LiveWithAuthor(s, cid)
    requires UserCommentsExact(s)
    ensures var c := CommentAt(s, cid).value;
      var author := s.users[c.username];
      UserCommentsExact(s.(
        comments := s.comments[cid := None],
        users := s.users[c.username := author.(commentIds := SpliceOne(author.commentIds, IndexOf(author.commentIds, cid)))]))
  {
    var c := CommentAt(s, cid).value;
    var author := s.users[c.username];
    var s' := s.(
      comments := s.comments[cid := None],
      users := s.users[c.username := author.(commentIds := SpliceOne(author.commentIds, IndexOf(author.commentIds, cid)))]);
    assert AuthoredBy(s, cid, c.username);
    RemoveDistinct(author.commentIds, cid);
    forall u | u in s'.users
      ensures Distinct(s'.users[u].commentIds)
      ensures forall x :: x in s'.users[u].commentIds <==> AuthoredBy(s', x, u)
    {
      forall x
        ensures x in s'.users[u].commentIds <==> AuthoredBy(s', x, u)
      {
        assert AuthoredBy(s', x, u) <==> AuthoredBy(s, x, u) && x != cid;
      }
    }
  }

  /** The `forEach` of `deleteArticle` with the comment's own id passed to
      `indexOf`. */
  function DropCommentsIntended(s: Store, ids: seq<nat>): (r: Store)
    requires Distinct(ids)
    requires forall i :: 0 <= i < |ids| ==> LiveWithAuthor(s, ids[i])
    ensures r.articles == s.articles
    ensures r.nextArticleId == s.nextArticleId && r.nextCommentId == s.nextCommentId
    ensures r.comments.Keys == s.comments.Keys
    ensures forall k :: k in s.comments ==> r.comments[k] == if k in ids then None else s.comments[k]
    ensures r.users.Keys == s.users.Keys
    ensures forall u :: u in s.users ==>
      && r.users[u].username == s.users[u].username
      && r.users[u].articleIds == s.users[u].articleIds
    decreases |ids|
  {
    if |ids| == 0 then s
    else
      var cid := ids[0];
      assert LiveWithAuthor(s, cid);
      var c := CommentAt(s, cid).value;
      var author := s.users[c.username];
      var s' := s.(
        comments := s.comments[cid := None],
        users := s.users[c.username := author.(commentIds := SpliceOne(author.commentIds, IndexOf(author.commentIds, cid)))]);
      forall i | 0 <= i < |ids[1..]|
        ensures LiveWithAuthor(s', ids[1..][i])
      {
        assert ids[1..][i] == ids[i + 1] != cid;
        assert LiveWithAuthor(s, ids[i + 1]);
      }
      DropCommentsIntended(s', ids[1..])
  }

  /** The corrected cascade keeps every user's comment list exact: each
      author loses precisely the ids of the comments tombstoned. */
  lemma {:induction false} DropCommentsIntendedKeepsExact(s: Store, ids: seq<nat>)
    requires Distinct(ids)
    requires forall i :: 0 <= i < |ids| ==> LiveWithAuthor(s, ids[i])
    requires UserCommentsExact(s)
    ensures UserCommentsExact(DropCommentsIntended(s, ids))
    decreases |ids|
  {
    if |ids| > 0 {
      var cid := ids[0];
      assert LiveWithAuthor(s, cid);
      var c := CommentAt(s, cid).value;
      var author := s.users[c.username];
      var s' := s.(
        comments := s.comments[cid := None],
        users := s.users[c.username := author.(commentIds := SpliceOne(author.commentIds, IndexOf(author.commentIds, cid)))]);
      DropOneKeepsExact(s, cid);
      forall i | 0 <= i < |ids[1..]|
        ensures LiveWithAuthor(s', ids[1..][i])
      {
        assert ids[1..][i] == ids[i + 1] != cid;
        assert LiveWithAuthor(s, ids[i + 1]);
      }
      DropCommentsIntendedKeepsExact(s', ids[1..]);
    }
  }

  /** DELETE /articles/:id as evidently intended: the same as
      `Handlers.DeleteArticle` except for the id each author's list loses. */
  function DeleteArticleIntended(s: Store, url: string): (r: (Store, Response))
    requires ArticleAt(s, PathId(url)).Some? ==> CascadeSafe(s, ArticleAt(s, PathId(url)).value)
    ensures ArticleAt(s, PathId(url)).None? ==> r == (s, Reject(BadRequest))
    ensures ArticleAt(s, PathId(url)).Some? ==>
      var id := PathId(url);
      var a := ArticleAt(s, id).value;
      && r.1 == Reject(NoContent)
      && r.0 == CascadeIntended(s, id, a)
  {
    var id := PathId(url);
    match ArticleAt(s, id)
    case None => (s, Reject(BadRequest))
    case Some(a) => (CascadeIntended(s, id, a), Reject(NoContent))
  }

  /** The store after the corrected delete of live article `a`, stored
      under `id`: the article and the comments it lists are tombstoned, each
      author loses the deleted comment's id and the owner the article's. */
  function CascadeIntended(s: Store, id: nat, a: Article): (r: Store)
    requires ArticleAt(s, id) == Some(a) && CascadeSafe(s, a)
    ensures r.articles == s.articles[id := None]
    ensures r.comments.Keys == s.comments.Keys
    ensures forall k :: k in s.comments ==> r.comments[k] == if k in a.commentIds then None else s.comments[k]
    ensures r.nextArticleId == s.nextArticleId && r.nextCommentId == s.nextCommentId
    ensures r.users.Keys == s.users.Keys
    ensures forall u :: u in s.users ==> r.users[u].username == s.users[u].username
    ensures forall u :: u in s.users && u != a.username ==> r.users[u].articleIds == s.users[u].articleIds
    ensures r.users[a.username].articleIds ==
      SpliceOne(s.users[a.username].articleIds, IndexOf(s.users[a.username].articleIds, id))
  {
    var s1 := s.(articles := s.articles[id := None]);
    var s2 := DropCommentsIntended(s1, a.commentIds);
    var owner := s2.users[a.username];
    s2.(users := s2.users[a.username := owner.(articleIds := SpliceOne(owner.articleIds, IndexOf(owner.articleIds, id)))])
  }

  /** The corrected cascade keeps every user's comment list exact. */
  lemma CascadeIntendedKeepsExact(s: Store, id: nat, a: Article)
    requires ArticleAt(s, id) == Some(a) && CascadeSafe(s, a)
    requires UserCommentsExact(s)
    ensures UserCommentsExact(CascadeIntended(s, id, a))
  {
    var s1 := s.(articles := s.articles[id := None]);
    assert forall x, u :: AuthoredBy(s1, x, u) == AuthoredBy(s, x, u);
    assert UserCommentsExact(s1);
    var s2 := DropCommentsIntended(s1, a.commentIds);
    DropCommentsIntendedKeepsExact(s1, a.commentIds);
    var owner := s2.users[a.username];
    var s3 := s2.(users := s2.users[a.username := owner.(articleIds := SpliceOne(owner.articleIds, IndexOf(owner.articleIds, id)))]);
    assert s3 == CascadeIntended(s, id, a);
    assert forall x, u :: AuthoredBy(s3, x, u) == AuthoredBy(s2, x, u);
    assert forall u :: u in s3.users ==> s3.users[u].commentIds == s2.users[u].commentIds;
  }

  /** The corrected cascade keeps every user's article list exact: only
      the owner loses an entry, the deleted article's id. */
  lemma CascadeIntendedKeepsArticlesExact(s: Store, id: nat, a: Article)
    requires ArticleAt(s, id) == Some(a) && CascadeSafe(s, a)
    requires UserArticlesExact(s)
    ensures UserArticlesExact(CascadeIntended(s, id, a))
  {
    var r := CascadeIntended(s, id, a);
    assert forall x :: ArticleAt(r, x) == if x == id then None else ArticleAt(s, x);
    DisownKeepsArticlesExact(s, id, r);
  }

  /** The corrected cascade tombstones what the source's does, so it keeps
      the cross-reference invariant too. */
  lemma CascadeIntendedKeepsValid(s: Store, id: nat, a: Article)
    requires Valid(s)
    requires ArticleAt(s, id) == Some(a) && CascadeSafe(s, a)
    ensures Valid(CascadeIntended(s, id, a))
  {
    var r := CascadeIntended(s, id, a);
    assert forall k :: ArticleAt(r, k) == if k == id then None else ArticleAt(s, k);
    assert forall k :: CommentAt(r, k) == if k in a.commentIds then None else CommentAt(s, k);
    TombstoneCascadeKeepsValid(s, id, r);
  }

  /** On a valid store whose user lists are exact, the corrected delete
      keeps the store valid and every user's lists exact. */
  lemma DeleteArticleIntendedKeepsLists(s: Store, url: string)
    requires Valid(s) && UserListsExact(s)
    ensures ArticleAt(s, PathId(url)).Some? ==> CascadeSafe(s, ArticleAt(s, PathId(url)).value)
    ensures var r := DeleteArticleIntended(s, url).0;
      Valid(r) && UserListsExact(r)
  {
    ValidCompletes(s, "DELETE", url);
    var id := PathId(url);
    if ArticleAt(s, id).Some? {
      var a := ArticleAt(s, id).value;
      CascadeIntendedKeepsValid(s, id, a);
      CascadeIntendedKeepsExact(s, id, a);
      CascadeIntendedKeepsArticlesExact(s, id, a);
    }
  }

  /** The corrected delete and the source's differ only in the users'
      comment lists: the same answer, the same articles, comments and
      counters, and the same article lists for every user. */
  lemma IntendedDiffersOnlyInCommentLists(s: Store, url: string)
    requires ArticleAt(s, PathId(url)).Some? ==> CascadeSafe(s, ArticleAt(s, PathId(url)).value)
    ensures var (w, rw) := DeleteArticle(s, url);
      var (i, ri) := DeleteArticleIntended(s, url);
      && rw == ri
      && w.articles == i.articles && w.comments == i.comments
      && w.nextArticleId == i.nextArticleId && w.nextCommentId == i.nextCommentId
      && w.users.Keys == i.users.Keys
      && forall u :: u in w.users ==>
        w.users[u].username == i.users[u].username && w.users[u].articleIds == i.users[u].articleIds
  {
    var id := PathId(url);
    if ArticleAt(s, id).Some? {
      var a := ArticleAt(s, id).value;
      var s1 := s.(articles := s.articles[id := None]);
      var w2 := DropComments(s1, id, a.commentIds);
      var i2 := DropCommentsIntended(s1, a.commentIds);
      assert w2.comments == i2.comments;
      var w := DeleteArticle(s, url).0;
      var i := DeleteArticleIntended(s, url).0;
      assert w == Disown(w2, a.username, id);
      forall u | u in w.users
        ensures w.users[u].articleIds == i.users[u].articleIds
      {
        if u != a.username {
          assert w.users[u].articleIds == s.users[u].articleIds;
        }
      }
    }
  }

  // -----------------------------------------------------------------------
  // The input that shows it
  // -----------------------------------------------------------------------

  /** alice owns articles 1 and 2; her comment 1 is on article 2 and her
      comment 2 on article 1. */
  const Sample := Store(
    map["alice" := User("alice", [1, 2], [1, 2])],
    map[1 := Some(Article(1, "t", "u", "alice", [2], NoVotes)),
        2 := Some(Article(2, "t", "u", "alice", [1], NoVotes))],
    map[1 := Some(Comment(1, 2, "b", "alice", NoVotes)),
        2 := Some(Comment(2, 1, "b", "alice", NoVotes))],
    3, 3)

  const DeleteFirst := Router.ItemUrl("articles", 1, None)

  lemma DeleteFirstReadsOne()
    ensures PathId(DeleteFirst) == 1
  {
    Router.ItemUrlRoutes("articles", 1, None);
  }

  lemma SampleCascadeSafe()
    ensures ArticleAt(Sample, 1) == Some(Article(1, "t", "u", "alice", [2], NoVotes))
    ensures CascadeSafe(Sample, ArticleAt(Sample, 1).value)
  {
    assert LiveWithAuthor(Sample, 2);
  }

  lemma SampleListsExact()
    ensures UserListsExact(Sample)
  {
    forall x
      ensures x in [1, 2] <==> OwnedBy(Sample, x, "alice")
      ensures x in [1, 2] <==> AuthoredBy(Sample, x, "alice")
    {
    }
  }

  lemma SampleValid()
    ensures Valid(Sample)
  {
    assert ArticleOk(Sample, 1, ArticleAt(Sample, 1).value) by {
      assert ListedIn(Sample, 2, 1);
    }
    assert ArticleOk(Sample, 2, ArticleAt(Sample, 2).value) by {
      assert ListedIn(Sample, 1, 2);
    }
    forall k | ArticleAt(Sample, k).Some?
      ensures ArticleOk(Sample, k, ArticleAt(Sample, k).value)
    {
      assert k == 1 || k == 2;
    }
    forall k | CommentAt(Sample, k).Some?
      ensures CommentOk(Sample, k, CommentAt(Sample, k).value)
    {
      assert k == 1 || k == 2;
    }
  }

  /** The bug's knock-on: once a live comment's id is missing from its
      author's list, `deleteComment` of that comment finds no index and
      `splice(-1, 1)` strikes the author's LAST entry instead. */
  lemma DeleteCommentStrikesLastWhenMissing(s: Store, url: string)
    requires ArticleOfCommentLive(s, RawPathId(url)) && LiveWithAuthor(s, RawPathId(url))
    ensures var id := RawPathId(url);
      var author := CommentAt(s, id).value.username;
      var l := s.users[author].commentIds;
      id !in l ==>
        DeleteComment(s, url).0.users[author].commentIds == if |l| == 0 then l else l[..|l| - 1]
  {
    var id := RawPathId(url);
    var l := s.users[CommentAt(s, id).value.username].commentIds;
    if id !in l {
      RemoveAbsent(l, id);
    }
  }

  /** Deleting article 1 as written tombstones comment 2 but strikes
      comment 1 -- still live -- from alice's list, which now names only the
      deleted comment. */
  lemma DeleteArticleLosesLiveComment()
    ensures PathId(DeleteFirst) == 1 && CascadeSafe(Sample, ArticleAt(Sample, 1).value)
    ensures var r := DeleteArticle(Sample, DeleteFirst).0;
      && r.users["alice"].commentIds == [2]
      && CommentAt(r, 2).None?
      && AuthoredBy(r, 1, "alice")
      && !UserCommentsExact(r)
  {
    SampleDeleteAsWritten();
    var r := DeleteArticle(Sample, DeleteFirst).0;
    assert 2 in r.users["alice"].commentIds && !AuthoredBy(r, 2, "alice");
  }

  /** The source's delete of article 1: alice keeps article 2 and the id of
      the comment just tombstoned, while comment 1 survives. */
  lemma SampleDeleteAsWritten()
    ensures PathId(DeleteFirst) == 1 && CascadeSafe(Sample, ArticleAt(Sample, 1).value)
    ensures var r := DeleteArticle(Sample, DeleteFirst).0;
      && r.users["alice"] == User("alice", [2], [2])
      && CommentAt(r, 1) == CommentAt(Sample, 1)
      && CommentAt(r, 2).None?
  {
    DeleteFirstReadsOne();
    SampleCascadeSafe();
    SampleDropAsWritten();
    assert SpliceOne([1, 2], IndexOf([1, 2], 1)) == [2];
  }

  /** The source's cascade on the sample: alice's list loses the entry at
      `indexOf(1)`, which is comment 1. */
  lemma SampleDropAsWritten()
    ensures var s1 := Sample.(articles := Sample.articles[1 := None]);
      CascadeSafe(s1, Article(1, "t", "u", "alice", [2], NoVotes)) &&
      DropComments(s1, 1, [2]) == s1.(
        comments := s1.comments[2 := None],
        users := s1.users["alice" := User("alice", [1, 2], [2])])
  {
    var s1 := Sample.(articles := Sample.articles[1 := None]);
    assert LiveWithAuthor(s1, 2);
    assert SpliceOne([1, 2], IndexOf([1, 2], 1)) == [2];
  }

  /** The corrected cascade on the sample: alice's list loses comment 2,
      the one deleted. */
  lemma SampleDropIntended()
    ensures var s1 := Sample.(articles := Sample.articles[1 := None]);
      CascadeSafe(s1, Article(1, "t", "u", "alice", [2], NoVotes)) &&
      DropCommentsIntended(s1, [2]) == s1.(
        comments := s1.comments[2 := None],
        users := s1.users["alice" := User("alice", [1, 2], [1])])
  {
    var s1 := Sample.(articles := Sample.articles[1 := None]);
    assert LiveWithAuthor(s1, 2);
    assert SpliceOne([1, 2], IndexOf([1, 2], 2)) == [1];
  }

  /** The corrected delete of article 1 leaves alice owning article 2 and
      authoring comment 1. */
  lemma SampleDeleteIntended()
    ensures PathId(DeleteFirst) == 1 && CascadeSafe(Sample, ArticleAt(Sample, 1).value)
    ensures DeleteArticleIntended(Sample, DeleteFirst).0.users["alice"] == User("alice", [2], [1])
  {
    DeleteFirstReadsOne();
    SampleCascadeSafe();
    SampleDropIntended();
    assert SpliceOne([1, 2], IndexOf([1, 2], 1)) == [2];
  }

  /** The corrected delete on the same input leaves alice's list naming her
      surviving comment, and every list exact. */
  lemma DeleteArticleIntendedKeepsLiveComment()
    ensures PathId(DeleteFirst) == 1 && CascadeSafe(Sample, ArticleAt(Sample, 1).value)
    ensures var r := DeleteArticleIntended(Sample, DeleteFirst).0;
      && r.users["alice"] == User("alice", [2], [1])
      && UserListsExact(r)
  {
    SampleDeleteIntended();
    SampleValid();
    SampleListsExact();
    DeleteArticleIntendedKeepsLists(Sample, DeleteFirst);
  }
}

=== FILE: handlers.dfy ===
/**
  The route handlers of server.js (lines 51-383). Each one reads its path
  parameter from the url and its fields from the request body, validates
  them against the store, and yields the store after the call together with
  the `{status, body}` descriptor. Validation always precedes mutation, so
  every rejected request leaves the store exactly as it was.
*/
module Handlers {
  import opened Js
  import opened Model
  import opened Voting

  /** `Number(url.split('/').filter(segment => segment)[1])`. */
  function PathId(url: string): (id: nat)
    ensures id != 0 ==> |Segments(url)| >= 2 && AllDigits(Segments(url)[1])
  {
    NumberOf(At(Segments(url), 1))
  }

  /** `Number(url.split('/')[2])`: `deleteComment` keeps empty pieces, so a
      doubled slash shifts the id out of place. */
  function RawPathId(url: string): (id: nat)
    ensures id != 0 ==> |Split(url)| >= 3 && AllDigits(Split(url)[2])
  {
    NumberOf(At(Split(url), 2))
  }

  /** `ids.map(id => database.articles[id])`: same length and order as
      `ids`, tombstones and unknown ids included. */
  function ResolveArticles(s: Store, ids: seq<nat>): (r: seq<Option<Article>>)
    ensures |r| == |ids|
    ensures forall i :: 0 <= i < |ids| ==> r[i] == ArticleAt(s, ids[i])
  {
    seq(|ids|, i requires 0 <= i < |ids| => ArticleAt(s, ids[i]))
  }

  /** `ids.map(id => database.comments[id])`. */
  function ResolveComments(s: Store, ids: seq<nat>): (r: seq<Option<Comment>>)
    ensures |r| == |ids|
    ensures forall i :: 0 <= i < |ids| ==> r[i] == CommentAt(s, ids[i])
  {
    seq(|ids|, i requires 0 <= i < |ids| => CommentAt(s, ids[i]))
  }

  /** Resolving a list that grew by one id resolves the old list and then
      the new id: what an article's or a user's detail shows after a
      `push`. */
  lemma ResolveAppend(s: Store, ids: seq<nat>, x: nat)
    ensures ResolveArticles(s, ids + [x]) == ResolveArticles(s, ids) + [ArticleAt(s, x)]
    ensures ResolveComments(s, ids + [x]) == ResolveComments(s, ids) + [CommentAt(s, x)]
  {
  }

  /** Resolution reads nothing but the table it resolves against. */
  lemma ResolveFrame(s: Store, s': Store, ids: seq<nat>)
    ensures s'.articles == s.articles ==> ResolveArticles(s', ids) == ResolveArticles(s, ids)
    ensures s'.comments == s.comments ==> ResolveComments(s', ids) == ResolveComments(s, ids)
  {
  }

  // -----------------------------------------------------------------------
  // Users
  // -----------------------------------------------------------------------

  /** GET /users/:username. The username is the second non-empty segment;
      it is truthy whenever it exists. */
  function GetUser(s: Store, url: string): (r: (Store, Response))
    ensures r.0 == s
    ensures var name := At(Segments(url), 1);
      && (r.1.status == Ok <==> UserAt(s, name).Some?)
      && (r.1.status == NotFound <==> UserAt(s, name).None? && Truthy(name))
      && (r.1.status == BadRequest <==> !Truthy(name))
    ensures r.1.status == Ok ==>
      var user := UserAt(s, At(Segments(url), 1)).value;
      && r.1.body.UserDetail?
      && r.1.body.user == user
      && r.1.body.userArticles == ResolveArticles(s, user.articleIds)
      && r.1.body.userComments == ResolveComments(s, user.commentIds)
  {
    var name := At(Segments(url), 1);
    match UserAt(s, name)
    case Some(user) =>
      (s, Response(Ok, UserDetail(user, ResolveArticles(s, user.articleIds), ResolveComments(s, user.commentIds))))
    case None =>
      if name.Some? then (s, Reject(NotFound)) else (s, Reject(BadRequest))
  }

  /** POST /users. */
  function GetOrCreateUser(s: Store, p: Payload): (r: (Store, Response))
    ensures UserAt(s, p.username).Some? ==>
      r == (s, Response(Ok, UserBody(UserAt(s, p.username).value)))
    ensures UserAt(s, p.username).None? && !Truthy(p.username) ==>
      r == (s, Reject(BadRequest))
    ensures UserAt(s, p.username).None? && Truthy(p.username) ==>
      var name := p.username.value;
      && r.1 == Response(Created, UserBody(User(name, [], [])))
      && r.0 == s.(users := s.users[name := User(name, [], [])])
      && r.0.users.Keys == s.users.Keys + {name}
      && name !in s.users
  {
    match UserAt(s, p.username)
    case Some(user) => (s, Response(Ok, UserBody(user)))
    case None =>
      if Truthy(p.username) then
        var user := User(p.username.value, [], []);
        (s.(users := s.users[user.username := user]), Response(Created, UserBody(user)))
      else (s, Reject(BadRequest))
  }

  // -----------------------------------------------------------------------
  // Articles
  // -----------------------------------------------------------------------

  /** A non-empty set of naturals has a largest element. */
  lemma {:induction false} MaxExists(ks: set<nat>)
    requires ks != {}
    ensures exists m :: m in ks && forall k :: k in ks ==> k <= m
  {
    var x :| x in ks;
    if ks != {x} {
      MaxExists(ks - {x});
      var m :| m in ks - {x} && forall k :: k in ks - {x} ==> k <= m;
      var top := if m < x then x else m;
      forall k | k in ks
        ensures k <= top
      {
        if k != x {
          assert k in ks - {x};
        }
      }
    } else {
      assert forall k :: k in ks ==> k <= x;
    }
  }

  function Max(ks: set<nat>): (m: nat)
    requires ks != {}
    ensures m in ks && forall k :: k in ks ==> k <= m
  {
    MaxExists(ks);
    var m :| m in ks && forall k :: k in ks ==> k <= m; m
  }

  /** The elements of `ks`, largest first. */
  function Descending(ks: set<nat>): (r: seq<nat>)
    ensures forall i, j :: 0 <= i < j < |r| ==> r[i] > r[j]
    ensures forall k :: k in r <==> k in ks
    decreases ks
  {
    if ks == {} then []
    else
      var m := Max(ks);
      var rest := Descending(ks - {m});
      assert forall k :: k in rest ==> k < m;
      [m] + rest
  }

  /** The ids whose slot holds a live (not tombstoned) article. */
  function LiveArticleIds(s: Store): set<nat> {
    set k | k in s.articles && s.articles[k].Some?
  }

  /** Every stored article carries the id it is stored under; the
      operations below only ever create such articles. */
  predicate ArticleIdsMatchKeys(s: Store) {
    forall k :: k in s.articles && s.articles[k].Some? ==> s.articles[k].value.id == k
  }

  function LiveArticles(s: Store, ids: seq<nat>): (r: seq<Article>)
    requires forall i :: 0 <= i < |ids| ==> ArticleAt(s, ids[i]).Some?
    ensures |r| == |ids|
    ensures forall i :: 0 <= i < |ids| ==> Some(r[i]) == ArticleAt(s, ids[i])
  {
    seq(|ids|, i requires 0 <= i < |ids| => ArticleAt(s, ids[i]).value)
  }

  /** GET /articles: every live article, newest first. The source takes
      the values of `database.articles`, drops the tombstones and sorts by
      descending `id`; on every store whose articles carry their own key as
      id, that is the order of descending keys used here. */
  function GetArticles(s: Store): (r: (Store, Response))
    ensures r.0 == s && r.1.status == Ok && r.1.body.ArticleList?
    ensures forall a :: a in r.1.body.articles <==> Some(a) in s.articles.Values
    ensures ArticleIdsMatchKeys(s) ==>
      forall i, j :: 0 <= i < j < |r.1.body.articles| ==>
        r.1.body.articles[i].id > r.1.body.articles[j].id
  {
    var ids := Descending(LiveArticleIds(s));
    assert forall i :: 0 <= i < |ids| ==> ids[i] in LiveArticleIds(s);
    var list := LiveArticles(s, ids);
    assert forall a :: a in list <==> Some(a) in s.articles.Values by {
      forall a
        ensures a in list <==> Some(a) in s.articles.Values
      {
        if a in list {
          var i :| 0 <= i < |list| && list[i] == a;
          assert s.articles[ids[i]] == Some(a);
        }
        if Some(a) in s.articles.Values {
          var k :| k in s.articles && s.articles[k] == Some(a);
          assert k in LiveArticleIds(s);
          var i :| 0 <= i < |ids| && ids[i] == k;
          assert list[i] == a;
        }
      }
    }
    (s, Response(Ok, ArticleList(list)))
  }

  /** GET /articles/:id. The source also stores the resolved list on the
      article object itself (as a `comments` field); here it is part of the
      response only. */
  function GetArticle(s: Store, url: string): (r: (Store, Response))
    ensures r.0 == s
    ensures var id := PathId(url);
      && (r.1.status == Ok <==> ArticleAt(s, id).Some?)
      && (r.1.status == NotFound <==> ArticleAt(s, id).None? && id != 0)
      && (r.1.status == BadRequest <==> ArticleAt(s, id).None? && id == 0)
    ensures r.1.status == Ok ==>
      var a := ArticleAt(s, PathId(url)).value;
      r.1.body == ArticleDetail(a, ResolveComments(s, a.commentIds))
  {
    var id := PathId(url);
    match ArticleAt(s, id)
    case Some(a) => (s, Response(Ok, ArticleDetail(a, ResolveComments(s, a.commentIds))))
    case None => if id != 0 then (s, Reject(NotFound)) else (s, Reject(BadRequest))
  }

  /** The checks `createArticle` makes before touching the store. */
  predicate ArticleAccepted(s: Store, p: Payload) {
    && p.article.Some?
    && Truthy(p.article.value.title)
    && Truthy(p.article.value.url)
    && Truthy(p.article.value.username)
    && p.article.value.username.value in s.users
  }

  /** POST /articles. */
  function CreateArticle(s: Store, p: Payload): (r: (Store, Response))
    ensures r.1.status == Created <==> ArticleAccepted(s, p)
    ensures !ArticleAccepted(s, p) ==> r == (s, Reject(BadRequest))
    ensures ArticleAccepted(s, p) ==>
      var id := s.nextArticleId;
      var f := p.article.value;
      var owner := f.username.value;
      var a := Article(id, f.title.value, f.url.value, owner, [], NoVotes);
      && r.1 == Response(Created, ArticleBody(a))
      && r.0.nextArticleId == id + 1
      && r.0.nextCommentId == s.nextCommentId
      && r.0.articles == s.articles[id := Some(a)]
      && r.0.comments == s.comments
      && r.0.users.Keys == s.users.Keys
      && r.0.users[owner].articleIds == s.users[owner].articleIds + [id]
      && r.0.users[owner].commentIds == s.users[owner].commentIds
      && r.0.users[owner].username == s.users[owner].username
      && forall u :: u in s.users && u != owner ==> r.0.users[u] == s.users[u]
  {
    if ArticleAccepted(s, p) then
      var f := p.article.value;
      var a := Article(s.nextArticleId, f.title.value, f.url.value, f.username.value, [], NoVotes);
      var owner := s.users[a.username];
      var s' := s.(
        nextArticleId := s.nextArticleId + 1,
        articles := s.articles[a.id := Some(a)],
        users := s.users[a.username := owner.(articleIds := owner.articleIds + [a.id])]);
      (s', Response(Created, ArticleBody(a)))
    else (s, Reject(BadRequest))
  }

  /** PUT /articles/:id: `title` and `url` are replaced by the payload's
      values when those are truthy; nothing else about the article moves. */
  function UpdateArticle(s: Store, url: string, p: Payload): (r: (Store, Response))
    ensures var id := PathId(url);
      && (id == 0 || p.article.None? ==> r == (s, Reject(BadRequest)))
      && (id != 0 && p.article.Some? && ArticleAt(s, id).None? ==> r == (s, Reject(NotFound)))
      && (r.1.status == Ok <==> id != 0 && p.article.Some? && ArticleAt(s, id).Some?)
    ensures r.1.status == Ok ==>
      var id := PathId(url);
      var before := ArticleAt(s, id).value;
      var f := p.article.value;
      exists after: Article ::
        && r == (s.(articles := s.articles[id := Some(after)]), Response(Ok, ArticleBody(after)))
        && after.id == before.id
        && after.username == before.username
        && after.commentIds == before.commentIds
        && after.votes == before.votes
        && after.title == (if Truthy(f.title) then f.title.value else before.title)
        && after.url == (if Truthy(f.url) then f.url.value else before.url)
  {
    var id := PathId(url);
    if id == 0 || p.article.None? then (s, Reject(BadRequest))
    else match ArticleAt(s, id)
      case None => (s, Reject(NotFound))
      case Some(a) =>
        var f := p.article.value;
        var after := a.(title := Or(f.title, a.title), url := Or(f.url, a.url));
        (s.(articles := s.articles[id := Some(after)]), Response(Ok, ArticleBody(after)))
  }

  /** A comment that can be passed to the cascade of `deleteArticle`
      without a TypeError: it is live and its author exists. */
  predicate LiveWithAuthor(s: Store, cid: nat) {
    CommentAt(s, cid).Some? && CommentAt(s, cid).value.username in s.users
  }

  predicate AuthoredBy(s: Store, cid: nat, u: string) {
    CommentAt(s, cid).Some? && CommentAt(s, cid).value.username == u
  }

  /** What `deleteArticle` needs of a live article to run to completion:
      its owner exists and its comment ids are distinct live comments whose
      authors exist (a repeated id would meet its own tombstone). */
  predicate CascadeSafe(s: Store, a: Article) {
    && a.username in s.users
    && Distinct(a.commentIds)
    && forall i :: 0 <= i < |a.commentIds| ==> LiveWithAuthor(s, a.commentIds[i])
  }

  /** One step of the `forEach` of `deleteArticle` (server.js lines
      202-205): the comment is tombstoned and its author's `commentIds`
      loses the element at `indexOf(articleId)` -- the ARTICLE id, as
      written -- or, when that id is absent, its last element. */
  function DropOne(s: Store, articleId: nat, cid: nat): (r: Store)
    requires LiveWithAuthor(s, cid)
    ensures r.articles == s.articles
    ensures r.nextArticleId == s.nextArticleId && r.nextCommentId == s.nextCommentId
    ensures r.comments == s.comments[cid := None]
    ensures r.users.Keys == s.users.Keys
    ensures forall u :: u in s.users ==>
      && r.users[u].username == s.users[u].username
      && r.users[u].articleIds == s.users[u].articleIds
    ensures forall u :: u in s.users && !AuthoredBy(s, cid, u) ==> r.users[u] == s.users[u]
    ensures var author := CommentAt(s, cid).value.username;
      var l := s.users[author].commentIds;
      r.users[author].commentIds == SpliceOne(l, IndexOf(l, articleId))
  {
    var c := CommentAt(s, cid).value;
    var author := s.users[c.username];
    s.(
      comments := s.comments[cid := None],
      users := s.users[c.username := author.(commentIds := SpliceOne(author.commentIds, IndexOf(author.commentIds, articleId)))])
  }

  /** The whole `forEach` of `deleteArticle` (server.js lines 201-206):
      `DropOne` for each listed comment, in order. */
  function DropComments(s: Store, articleId: nat, ids: seq<nat>): (r: Store)
    requires Distinct(ids)
    requires forall i :: 0 <= i < |ids| ==> LiveWithAuthor(s, ids[i])
    ensures r.articles == s.articles
    ensures r.nextArticleId == s.nextArticleId && r.nextCommentId == s.nextCommentId
    ensures r.comments.Keys == s.comments.Keys
    ensures forall k :: k in s.comments ==> r.comments[k] == if k in ids then None else s.comments[k]
    ensures r.users.Keys == s.users.Keys
    ensures forall u :: u in s.users ==>
      && r.users[u].username == s.users[u].username
      && r.users[u].articleIds == s.users[u].articleIds
    ensures forall u :: u in s.users && (forall i :: 0 <= i < |ids| ==> !AuthoredBy(s, ids[i], u)) ==>
      r.users[u] == s.users[u]
    decreases |ids|
  {
    if |ids| == 0 then s
    else
      var s' := DropOne(s, articleId, ids[0]);
      forall i | 0 <= i < |ids[1..]|
        ensures LiveWithAuthor(s', ids[1..][i]) && (forall u :: AuthoredBy(s', ids[1..][i], u) == AuthoredBy(s, ids[i + 1], u))
      {
        assert ids[1..][i] == ids[i + 1] != ids[0];
        assert LiveWithAuthor(s, ids[i + 1]);
      }
      DropComments(s', articleId, ids[1..])
  }

  /** `n` rounds of `l.splice(l.indexOf(x), 1)`. */
  function Withdraw(l: seq<nat>, x: nat, n: nat): seq<nat>
    decreases n
  {
    if n == 0 then l else Withdraw(SpliceOne(l, IndexOf(l, x)), x, n - 1)
  }

  /** How many of the comments `ids` are live in `comments` and written by
      `u`. */
  function AuthoredCount(comments: map<nat, Option<Comment>>, ids: seq<nat>, u: string): nat {
    if |ids| == 0 then 0
    else
      var mine := ids[0] in comments && comments[ids[0]].Some? && comments[ids[0]].value.username == u;
      (if mine then 1 else 0) + AuthoredCount(comments, ids[1..], u)
  }

  /** The count only looks at the listed slots. */
  lemma {:induction false} AuthoredCountStable(c: map<nat, Option<Comment>>, c': map<nat, Option<Comment>>, ids: seq<nat>, u: string)
    requires forall k :: k in ids ==> (k in c' <==> k in c) && (k in c ==> c'[k] == c[k])
    ensures AuthoredCount(c', ids, u) == AuthoredCount(c, ids, u)
    decreases |ids|
  {
    if |ids| > 0 {
      assert forall k :: k in ids[1..] ==> k in ids;
      AuthoredCountStable(c, c', ids[1..], u);
    }
  }

  /** The cascade as written, user by user: every author runs the same
      `splice(indexOf(articleId), 1)` once per listed comment of theirs, so
      each user's `commentIds` loses `AuthoredCount` entries at the position
      of the ARTICLE id (or, once that is gone, at the end) -- not
      necessarily the deleted comments' own ids. */
  lemma DropCommentsWithdraws(s: Store, articleId: nat, ids: seq<nat>)
    requires Distinct(ids)
    requires forall i :: 0 <= i < |ids| ==> LiveWithAuthor(s, ids[i])
    ensures forall u :: u in s.users ==>
      DropComments(s, articleId, ids).users[u].commentIds ==
        Withdraw(s.users[u].commentIds, articleId, AuthoredCount(s.comments, ids, u))
  {
    forall u | u in s.users
      ensures DropComments(s, articleId, ids).users[u].commentIds ==
        Withdraw(s.users[u].commentIds, articleId, AuthoredCount(s.comments, ids, u))
    {
      DropCommentsWithdrawsFor(s, articleId, ids, u);
    }
  }

  lemma {:induction false} DropCommentsWithdrawsFor(s: Store, articleId: nat, ids: seq<nat>, u: string)
    requires Distinct(ids)
    requires forall i :: 0 <= i < |ids| ==> LiveWithAuthor(s, ids[i])
    requires u in s.users
    ensures DropComments(s, articleId, ids).users[u].commentIds ==
      Withdraw(s.users[u].commentIds, articleId, AuthoredCount(s.comments, ids, u))
    decreases |ids|
  {
    if |ids| > 0 {
      var s' := DropOne(s, articleId, ids[0]);
      var mine := AuthoredBy(s, ids[0], u);
      var n := AuthoredCount(s.comments, ids[1..], u);
      var total := AuthoredCount(s.comments, ids, u);
      DropTail(s, articleId, ids);
      DropCommentsWithdrawsFor(s', articleId, ids[1..], u);
      AuthoredCountStable(s.comments, s'.comments, ids[1..], u);
      assert total == (if mine then 1 else 0) + n;
      WithdrawOneMore(s.users[u].commentIds, s'.users[u].commentIds, articleId, mine, n, total);
    }
  }

  /** After the first step of the cascade the rest of the list still meets
      the cascade's requirements, and its slots are untouched. */
  lemma DropTail(s: Store, articleId: nat, ids: seq<nat>)
    requires |ids| > 0 && Distinct(ids)
    requires forall i :: 0 <= i < |ids| ==> LiveWithAuthor(s, ids[i])
    ensures var s' := DropOne(s, articleId, ids[0]);
      && Distinct(ids[1..])
      && (forall i :: 0 <= i < |ids[1..]| ==> LiveWithAuthor(s', ids[1..][i]))
      && (forall k :: k in ids[1..] ==> (k in s'.comments <==> k in s.comments) && (k in s.comments ==> s'.comments[k] == s.comments[k]))
      && DropComments(s, articleId, ids) == DropComments(s', articleId, ids[1..])
  {
    var s' := DropOne(s, articleId, ids[0]);
    forall i | 0 <= i < |ids[1..]|
      ensures LiveWithAuthor(s', ids[1..][i]) && ids[1..][i] != ids[0]
    {
      assert ids[1..][i] == ids[i + 1] != ids[0];
      assert LiveWithAuthor(s, ids[i + 1]);
    }
    assert Distinct(ids[1..]) by {
      forall i, j | 0 <= i < j < |ids[1..]|
        ensures ids[1..][i] != ids[1..][j]
      {
        assert ids[1..][i] == ids[i + 1] && ids[1..][j] == ids[j + 1];
      }
    }
  }

  /** One more round in front, when the first comment is `u`'s. */
  lemma WithdrawOneMore(l: seq<nat>, l': seq<nat>, x: nat, mine: bool, n: nat, total: nat)
    requires l' == if mine then SpliceOne(l, IndexOf(l, x)) else l
    requires total == (if mine then 1 else 0) + n
    ensures Withdraw(l', x, n) == Withdraw(l, x, total)
  {
  }

  /** `owner.articleIds.splice(owner.articleIds.indexOf(id), 1)` (server.js
      lines 207-208): only user `u`'s article list changes. */
  function Disown(s: Store, u: string, id: nat): (r: Store)
    requires u in s.users
    ensures r.articles == s.articles && r.comments == s.comments
    ensures r.nextArticleId == s.nextArticleId && r.nextCommentId == s.nextCommentId
    ensures r.users.Keys == s.users.Keys
    ensures forall v :: v in s.users && v != u ==> r.users[v] == s.users[v]
    ensures r.users[u].username == s.users[u].username
    ensures r.users[u].commentIds == s.users[u].commentIds
    ensures r.users[u].articleIds == SpliceOne(s.users[u].articleIds, IndexOf(s.users[u].articleIds, id))
  {
    var owner := s.users[u];
    s.(users := s.users[u := owner.(articleIds := SpliceOne(owner.articleIds, IndexOf(owner.articleIds, id)))])
  }

  /** DELETE /articles/:id. A missing article is a 400 here (unlike the
      404 of `deleteComment`). */
  function DeleteArticle(s: Store, url: string): (r: (Store, Response))
    requires ArticleAt(s, PathId(url)).Some? ==> CascadeSafe(s, ArticleAt(s, PathId(url)).value)
    ensures ArticleAt(s, PathId(url)).None? ==> r == (s, Reject(BadRequest))
    ensures ArticleAt(s, PathId(url)).Some? ==>
      var id := PathId(url);
      var a := ArticleAt(s, id).value;
      && r.1 == Reject(NoContent)
      && r.0.articles == s.articles[id := None]
      && r.0.comments.Keys == s.comments.Keys
      && (forall k :: k in s.comments ==> r.0.comments[k] == if k in a.commentIds then None else s.comments[k])
      && r.0.nextArticleId == s.nextArticleId
      && r.0.nextCommentId == s.nextCommentId
      && r.0.users.Keys == s.users.Keys
      && (forall u :: u in s.users ==> r.0.users[u].username == s.users[u].username)
      && r.0.users[a.username].articleIds ==
        SpliceOne(s.users[a.username].articleIds, IndexOf(s.users[a.username].articleIds, id))
      && (forall u :: u in s.users && u != a.username ==> r.0.users[u].articleIds == s.users[u].articleIds)
      && (forall u :: u in s.users ==>
            r.0.users[u].commentIds == Withdraw(s.users[u].commentIds, id, AuthoredCount(s.comments, a.commentIds, u)))
      && (forall u :: u in s.users && u != a.username && AuthoredCount(s.comments, a.commentIds, u) == 0 ==>
            r.0.users[u] == s.users[u])
  {
    var id := PathId(url);
    match ArticleAt(s, id)
    case None => (s, Reject(BadRequest))
    case Some(a) =>
      CascadeUsers(s, id, a);
      (Cascade(s, id, a), Reject(NoContent))
  }

  /** The store after `deleteArticle` of live article `a`, stored under
      `id`, as written: tombstone, cascade, then the owner's list. */
  function Cascade(s: Store, id: nat, a: Article): (r: Store)
    requires CascadeSafe(s, a)
    ensures r.articles == s.articles[id := None]
    ensures r.comments.Keys == s.comments.Keys
    ensures forall k :: k in s.comments ==> r.comments[k] == if k in a.commentIds then None else s.comments[k]
    ensures r.nextArticleId == s.nextArticleId && r.nextCommentId == s.nextCommentId
    ensures r.users.Keys == s.users.Keys
  {
    Disown(DropComments(s.(articles := s.articles[id := None]), id, a.commentIds), a.username, id)
  }

  /** What the cascade does to the users: the owner's article list loses
      the entry at `indexOf(id)`, and every user's comment list loses one
      entry at `indexOf(id)` per deleted comment of theirs. */
  lemma CascadeUsers(s: Store, id: nat, a: Article)
    requires CascadeSafe(s, a)
    ensures var r := Cascade(s, id, a);
      && (forall u :: u in s.users ==> r.users[u].username == s.users[u].username)
      && r.users[a.username].articleIds ==
        SpliceOne(s.users[a.username].articleIds, IndexOf(s.users[a.username].articleIds, id))
      && (forall u :: u in s.users && u != a.username ==> r.users[u].articleIds == s.users[u].articleIds)
      && (forall u :: u in s.users ==>
            r.users[u].commentIds == Withdraw(s.users[u].commentIds, id, AuthoredCount(s.comments, a.commentIds, u)))
      && (forall u :: u in s.users && u != a.username && AuthoredCount(s.comments, a.commentIds, u) == 0 ==>
            r.users[u] == s.users[u])
  {
    CascadeArticleLists(s, id, a);
    CascadeCommentLists(s, id, a);
    var r := Cascade(s, id, a);
    forall u | u in s.users && u != a.username && AuthoredCount(s.comments, a.commentIds, u) == 0
      ensures r.users[u] == s.users[u]
    {
      assert r.users[u].commentIds == s.users[u].commentIds;
    }
  }

  lemma CascadeArticleLists(s: Store, id: nat, a: Article)
    requires CascadeSafe(s, a)
    ensures var r := Cascade(s, id, a);
      && (forall u :: u in s.users ==> r.users[u].username == s.users[u].username)
      && r.users[a.username].articleIds ==
        SpliceOne(s.users[a.username].articleIds, IndexOf(s.users[a.username].articleIds, id))
      && (forall u :: u in s.users && u != a.username ==> r.users[u].articleIds == s.users[u].articleIds)
  {
    var s1 := s.(articles := s.articles[id := None]);
    var s2 := DropComments(s1, id, a.commentIds);
    assert s1.users == s.users;
    assert forall u :: u in s.users ==>
      s2.users[u].username == s.users[u].username && s2.users[u].articleIds == s.users[u].articleIds;
    var r := Disown(s2, a.username, id);
    assert Cascade(s, id, a) == r;
  }

  lemma CascadeCommentLists(s: Store, id: nat, a: Article)
    requires CascadeSafe(s, a)
    ensures var r := Cascade(s, id, a);
      forall u :: u in s.users ==>
        r.users[u].commentIds == Withdraw(s.users[u].commentIds, id, AuthoredCount(s.comments, a.commentIds, u))
  {
    var s1 := s.(articles := s.articles[id := None]);
    var s2 := DropComments(s1, id, a.commentIds);
    DropCommentsWithdraws(s1, id, a.commentIds);
    assert Cascade(s, id, a) == Disown(s2, a.username, id);
  }

  /** PUT /articles/:id/upvote and /downvote: both the article and the
      voting user must exist. */
  function VoteArticle(s: Store, url: string, p: Payload, d: Direction): (r: (Store, Response))
    ensures r.1.status == Ok <==> ArticleAt(s, PathId(url)).Some? && UserAt(s, p.username).Some?
    ensures r.1.status != Ok ==> r == (s, Reject(BadRequest))
    ensures r.1.status == Ok ==>
      var id := PathId(url);
      var a := ArticleAt(s, id).value;
      var a' := a.(votes := Cast(a.votes, p.username.value, d));
      r == (s.(articles := s.articles[id := Some(a')]), Response(Ok, ArticleBody(a')))
  {
    var id := PathId(url);
    if ArticleAt(s, id).Some? && UserAt(s, p.username).Some? then
      var a := ArticleAt(s, id).value;
      var a' := a.(votes := Cast(a.votes, p.username.value, d));
      (s.(articles := s.articles[id := Some(a')]), Response(Ok, ArticleBody(a')))
    else (s, Reject(BadRequest))
  }

  // -----------------------------------------------------------------------
  // Comments
  // -----------------------------------------------------------------------

  /** The checks `createComment` makes before touching the store. */
  predicate CommentAccepted(s: Store, p: Payload) {
    && p.comment.Some?
    && Truthy(p.comment.value.body)
    && Truthy(p.comment.value.username)
    && p.comment.value.articleId != 0
    && p.comment.value.username.value in s.users
    && ArticleAt(s, p.comment.value.articleId).Some?
  }

  /** POST /comments. */
  function CreateComment(s: Store, p: Payload): (r: (Store, Response))
    ensures r.1.status == Created <==> CommentAccepted(s, p)
    ensures !CommentAccepted(s, p) ==> r == (s, Reject(BadRequest))
    ensures CommentAccepted(s, p) ==>
      var id := s.nextCommentId;
      var f := p.comment.value;
      var author := f.username.value;
      var c := Comment(id, f.articleId, f.body.value, author, NoVotes);
      var a := ArticleAt(s, f.articleId).value;
      && r.1 == Response(Created, CommentBody(c))
      && r.0.nextCommentId == id + 1
      && r.0.nextArticleId == s.nextArticleId
      && r.0.comments == s.comments[id := Some(c)]
      && r.0.articles == s.articles[f.articleId := Some(a.(commentIds := a.commentIds + [id]))]
      && r.0.users.Keys == s.users.Keys
      && r.0.users[author].commentIds == s.users[author].commentIds + [id]
      && r.0.users[author].articleIds == s.users[author].articleIds
      && r.0.users[author].username == s.users[author].username
      && forall u :: u in s.users && u != author ==> r.0.users[u] == s.users[u]
  {
    if CommentAccepted(s, p) then
      var f := p.comment.value;
      var c := Comment(s.nextCommentId, f.articleId, f.body.value, f.username.value, NoVotes);
      var a := ArticleAt(s, c.articleId).value;
      var author := s.users[c.username];
      var s' := s.(
        nextCommentId := s.nextCommentId + 1,
        comments := s.comments[c.id := Some(c)],
        articles := s.articles[c.articleId := Some(a.(commentIds := a.commentIds + [c.id]))],
        users := s.users[c.username := author.(commentIds := author.commentIds + [c.id])]);
      (s', Response(Created, CommentBody(c)))
    else (s, Reject(BadRequest))
  }

  /** PUT /comments/:id: only `body` can change, and only to a truthy
      value. */
  function UpdateComment(s: Store, url: string, p: Payload): (r: (Store, Response))
    ensures var id := PathId(url);
      && (id == 0 || p.comment.None? ==> r == (s, Reject(BadRequest)))
      && (id != 0 && p.comment.Some? && CommentAt(s, id).None? ==> r == (s, Reject(NotFound)))
      && (r.1.status == Ok <==> id != 0 && p.comment.Some? && CommentAt(s, id).Some?)
    ensures r.1.status == Ok ==>
      var id := PathId(url);
      var before := CommentAt(s, id).value;
      var f := p.comment.value;
      exists after: Comment ::
        && r == (s.(comments := s.comments[id := Some(after)]), Response(Ok, CommentBody(after)))
        && after.id == before.id
        && after.articleId == before.articleId
        && after.username == before.username
        && after.votes == before.votes
        && after.body == (if Truthy(f.body) then f.body.value else before.body)
  {
    var id := PathId(url);
    if id == 0 || p.comment.None? then (s, Reject(BadRequest))
    else match CommentAt(s, id)
      case None => (s, Reject(NotFound))
      case Some(c) =>
        var after := c.(body := Or(p.comment.value.body, c.body));
        (s.(comments := s.comments[id := Some(after)]), Response(Ok, CommentBody(after)))
  }

  /** What `deleteComment` needs to run to completion: once it has found the
      comment and its author, the comment's article must be live. */
  predicate ArticleOfCommentLive(s: Store, id: nat) {
    LiveWithAuthor(s, id) ==> ArticleAt(s, CommentAt(s, id).value.articleId).Some?
  }

  /** DELETE /comments/:id: one `splice(indexOf(id), 1)` on the author's
      `commentIds` and one on the article's, then the tombstone. */
  function DeleteComment(s: Store, url: string): (r: (Store, Response))
    requires ArticleOfCommentLive(s, RawPathId(url))
    ensures !LiveWithAuthor(s, RawPathId(url)) ==> r == (s, Reject(NotFound))
    ensures LiveWithAuthor(s, RawPathId(url)) ==>
      var id := RawPathId(url);
      var c := CommentAt(s, id).value;
      var author := s.users[c.username];
      var a := ArticleAt(s, c.articleId).value;
      && r.1 == Reject(NoContent)
      && r.0.comments == s.comments[id := None]
      && r.0.articles == s.articles[c.articleId := Some(a.(commentIds := SpliceOne(a.commentIds, IndexOf(a.commentIds, id))))]
      && r.0.users == s.users[c.username := author.(commentIds := SpliceOne(author.commentIds, IndexOf(author.commentIds, id)))]
      && r.0.nextArticleId == s.nextArticleId
      && r.0.nextCommentId == s.nextCommentId
  {
    var id := RawPathId(url);
    if LiveWithAuthor(s, id) then
      var c := CommentAt(s, id).value;
      var author := s.users[c.username];
      var s1 := s.(users := s.users[c.username := author.(commentIds := SpliceOne(author.commentIds, IndexOf(author.commentIds, id)))]);
      var a := ArticleAt(s1, c.articleId).value;
      var s2 := s1.(articles := s1.articles[c.articleId := Some(a.(commentIds := SpliceOne(a.commentIds, IndexOf(a.commentIds, id))))]);
      (s2.(comments := s2.comments[id := None]), Reject(NoContent))
    else (s, Reject(NotFound))
  }

  /** PUT /comments/:id/upvote and /downvote. */
  function VoteComment(s: Store, url: string, p: Payload, d: Direction): (r: (Store, Response))
    ensures r.1.status == Ok <==> CommentAt(s, PathId(url)).Some? && UserAt(s, p.username).Some?
    ensures r.1.status != Ok ==> r == (s, Reject(BadRequest))
    ensures r.1.status == Ok ==>
      var id := PathId(url);
      var c := CommentAt(s, id).value;
      var c' := c.(votes := Cast(c.votes, p.username.value, d));
      r == (s.(comments := s.comments[id := Some(c')]), Response(Ok, CommentBody(c')))
  {
    var id := PathId(url);
    if CommentAt(s, id).Some? && UserAt(s, p.username).Some? then
      var c := CommentAt(s, id).value;
      var c' := c.(votes := Cast(c.votes, p.username.value, d));
      (s.(comments := s.comments[id := Some(c')]), Response(Ok, CommentBody(c')))
    else (s, Reject(BadRequest))
  }
}

=== FILE: integrity.dfy ===
/**
  The cross-reference invariant the handlers keep. Every store a running
  server can reach -- starting from the empty database and applying any
  sequence of requests -- satisfies `Valid`, and on a valid store no
  handler stops on a TypeError.
*/
module Integrity {
  import opened Js
  import opened Model
  import opened Voting
  import opened Handlers
  import Router

  /** Comment `cid` is live and belongs to article `k`. */
  predicate ListedIn(s: Store, cid: nat, k: nat) {
    CommentAt(s, cid).Some? && CommentAt(s, cid).value.articleId == k
  }

  /** A live article stored under `k`: it carries `k` as its id, its owner
      exists, its comment list names distinct live comments of its own, and
      each voter holds at most one vote on it. */
  predicate ArticleOk(s: Store, k: nat, a: Article) {
    && a.id == k
    && a.username in s.users
    && Distinct(a.commentIds)
    && (forall i :: 0 <= i < |a.commentIds| ==> ListedIn(s, a.commentIds[i], k))
    && Exclusive(a.votes)
  }

  /** A live comment stored under `k`: it carries `k` as its id, its author
      exists, its article is live and lists it, and each voter holds at
      most one vote on it. */
  predicate CommentOk(s: Store, k: nat, c: Comment) {
    && c.id == k
    && c.username in s.users
    && ArticleAt(s, c.articleId).Some?
    && k in ArticleAt(s, c.articleId).value.commentIds
    && Exclusive(c.votes)
  }

  /** Both counters point past every id in use, usernames are truthy keys
      of their own records, and every live article and comment is
      consistent with the rest of the store. */
  ghost predicate Valid(s: Store) {
    && 1 <= s.nextArticleId
    && 1 <= s.nextCommentId
    && (forall u :: u in s.users ==> u != "" && s.users[u].username == u)
    && (forall k :: k in s.articles ==> 1 <= k < s.nextArticleId)
    && (forall k :: k in s.comments ==> 1 <= k < s.nextCommentId)
    && (forall k :: ArticleAt(s, k).Some? ==> ArticleOk(s, k, ArticleAt(s, k).value))
    && (forall k :: CommentAt(s, k).Some? ==> CommentOk(s, k, CommentAt(s, k).value))
  }

  lemma EmptyStoreValid()
    ensures Valid(EmptyStore)
  {
  }

  // -----------------------------------------------------------------------
  // A valid store never makes a handler fail
  // -----------------------------------------------------------------------

  /** On a valid store `deleteArticle`'s cascade and `deleteComment`'s
      article lookup both succeed, whatever the url. */
  lemma ValidCompletes(s: Store, verb: string, url: string)
    requires Valid(s)
    ensures Router.Completes(s, verb, url)
  {
    var id := PathId(url);
    if ArticleAt(s, id).Some? {
      var a := ArticleAt(s, id).value;
      assert ArticleOk(s, id, a);
      forall i | 0 <= i < |a.commentIds|
        ensures LiveWithAuthor(s, a.commentIds[i])
      {
        assert ListedIn(s, a.commentIds[i], id);
        assert CommentOk(s, a.commentIds[i], CommentAt(s, a.commentIds[i]).value);
      }
    }
    var cid := RawPathId(url);
    if CommentAt(s, cid).Some? {
      assert CommentOk(s, cid, CommentAt(s, cid).value);
    }
  }

  // -----------------------------------------------------------------------
  // Each handler keeps the invariant
  // -----------------------------------------------------------------------

  lemma GetOrCreateUserKeepsValid(s: Store, p: Payload)
    requires Valid(s)
    ensures Valid(GetOrCreateUser(s, p).0)
  {
    var s' := GetOrCreateUser(s, p).0;
    assert s'.articles == s.articles && s'.comments == s.comments;
    assert s.users.Keys <= s'.users.Keys;
    forall k | ArticleAt(s', k).Some?
      ensures ArticleOk(s', k, ArticleAt(s', k).value)
    {
      assert ArticleOk(s, k, ArticleAt(s, k).value);
    }
    forall k | CommentAt(s', k).Some?
      ensures CommentOk(s', k, CommentAt(s', k).value)
    {
      assert CommentOk(s, k, CommentAt(s, k).value);
    }
  }

  lemma CreateArticleKeepsValid(s: Store, p: Payload)
    requires Valid(s)
    ensures Valid(CreateArticle(s, p).0)
  {
    if ArticleAccepted(s, p) {
      var s' := CreateArticle(s, p).0;
      var id := s.nextArticleId;
      assert id !in s.articles;
      forall k | ArticleAt(s', k).Some?
        ensures ArticleOk(s', k, ArticleAt(s', k).value)
      {
        if k != id {
          var a := ArticleAt(s, k).value;
          assert ArticleOk(s, k, a);
          forall i | 0 <= i < |a.commentIds|
            ensures ListedIn(s', a.commentIds[i], k)
          {
            assert ListedIn(s, a.commentIds[i], k);
          }
        }
      }
      forall k | CommentAt(s', k).Some?
        ensures CommentOk(s', k, CommentAt(s', k).value)
      {
        var c := CommentAt(s, k).value;
        assert CommentOk(s, k, c);
        assert c.articleId != id;
      }
    }
  }

  lemma UpdateArticleKeepsValid(s: Store, url: string, p: Payload)
    requires Valid(s)
    ensures Valid(UpdateArticle(s, url, p).0)
  {
    var id := PathId(url);
    if id != 0 && p.article.Some? && ArticleAt(s, id).Some? {
      var s' := UpdateArticle(s, url, p).0;
      assert s'.comments == s.comments && s'.users == s.users;
      assert forall k :: ArticleAt(s', k).Some? <==> ArticleAt(s, k).Some?;
      assert forall k :: ArticleAt(s', k).Some? ==>
        ArticleAt(s', k).value.commentIds == ArticleAt(s, k).value.commentIds
        && ArticleAt(s', k).value.id == ArticleAt(s, k).value.id
        && ArticleAt(s', k).value.username == ArticleAt(s, k).value.username
        && ArticleAt(s', k).value.votes == ArticleAt(s, k).value.votes;
      forall k | ArticleAt(s', k).Some?
        ensures ArticleOk(s', k, ArticleAt(s', k).value)
      {
        var a := ArticleAt(s, k).value;
        assert ArticleOk(s, k, a);
        forall i | 0 <= i < |a.commentIds|
          ensures ListedIn(s', a.commentIds[i], k)
        {
          assert ListedIn(s, a.commentIds[i], k);
        }
      }
      forall k | CommentAt(s', k).Some?
        ensures CommentOk(s', k, CommentAt(s', k).value)
      {
        assert CommentOk(s, k, CommentAt(s, k).value);
      }
    }
  }

  lemma VoteArticleKeepsValid(s: Store, url: string, p: Payload, d: Direction)
    requires Valid(s)
    ensures Valid(VoteArticle(s, url, p, d).0)
  {
    var id := PathId(url);
    if ArticleAt(s, id).Some? && UserAt(s, p.username).Some? {
      var s' := VoteArticle(s, url, p, d).0;
      assert s'.comments == s.comments && s'.users == s.users;
      assert forall k :: ArticleAt(s', k).Some? <==> ArticleAt(s, k).Some?;
      assert forall k :: ArticleAt(s', k).Some? ==>
        ArticleAt(s', k).value.commentIds == ArticleAt(s, k).value.commentIds
        && ArticleAt(s', k).value.id == ArticleAt(s, k).value.id
        && ArticleAt(s', k).value.username == ArticleAt(s, k).value.username;
      forall k | ArticleAt(s', k).Some?
        ensures ArticleOk(s', k, ArticleAt(s', k).value)
      {
        var a := ArticleAt(s, k).value;
        assert ArticleOk(s, k, a);
        if k == id {
          CastKeepsExclusive(a.votes, p.username.value, d);
        } else {
          assert ArticleAt(s', k) == ArticleAt(s, k);
        }
        forall i | 0 <= i < |a.commentIds|
          ensures ListedIn(s', a.commentIds[i], k)
        {
          assert ListedIn(s, a.commentIds[i], k);
        }
      }
      forall k | CommentAt(s', k).Some?
        ensures CommentOk(s', k, CommentAt(s', k).value)
      {
        assert CommentOk(s, k, CommentAt(s, k).value);
      }
    }
  }

  lemma CreateCommentKeepsValid(s: Store, p: Payload)
    requires Valid(s)
    ensures Valid(CreateComment(s, p).0)
  {
    if CommentAccepted(s, p) {
      var s' := CreateComment(s, p).0;
      var id := s.nextCommentId;
      var aid := p.comment.value.articleId;
      var target := ArticleAt(s, aid).value;
      assert id !in s.comments;
      assert ArticleOk(s, aid, target);
      forall i | 0 <= i < |target.commentIds|
        ensures target.commentIds[i] != id
      {
        assert ListedIn(s, target.commentIds[i], aid);
      }
      forall k | ArticleAt(s', k).Some?
        ensures ArticleOk(s', k, ArticleAt(s', k).value)
      {
        var a := ArticleAt(s, k).value;
        var a' := ArticleAt(s', k).value;
        assert ArticleOk(s, k, a);
        forall i | 0 <= i < |a'.commentIds|
          ensures ListedIn(s', a'.commentIds[i], k)
        {
          if i < |a.commentIds| {
            assert a'.commentIds[i] == a.commentIds[i];
            assert ListedIn(s, a.commentIds[i], k);
          }
        }
        if k == aid {
          PushDistinct(a.commentIds, id);
        }
      }
      forall k | CommentAt(s', k).Some?
        ensures CommentOk(s', k, CommentAt(s', k).value)
      {
        if k != id {
          assert CommentOk(s, k, CommentAt(s, k).value);
        }
      }
    }
  }

  lemma UpdateCommentKeepsValid(s: Store, url: string, p: Payload)
    requires Valid(s)
    ensures Valid(UpdateComment(s, url, p).0)
  {
    var id := PathId(url);
    if id != 0 && p.comment.Some? && CommentAt(s, id).Some? {
      var s' := UpdateComment(s, url, p).0;
      assert s'.articles == s.articles && s'.users == s.users;
      assert forall k :: CommentAt(s', k).Some? <==> CommentAt(s, k).Some?;
      assert forall k :: CommentAt(s', k).Some? ==>
        CommentAt(s', k).value.articleId == CommentAt(s, k).value.articleId
        && CommentAt(s', k).value.id == CommentAt(s, k).value.id
        && CommentAt(s', k).value.username == CommentAt(s, k).value.username
        && CommentAt(s', k).value.votes == CommentAt(s, k).value.votes;
      forall k | ArticleAt(s', k).Some?
        ensures ArticleOk(s', k, ArticleAt(s', k).value)
      {
        var a := ArticleAt(s, k).value;
        assert ArticleOk(s, k, a);
        forall i | 0 <= i < |a.commentIds|
          ensures ListedIn(s', a.commentIds[i], k)
        {
          assert ListedIn(s, a.commentIds[i], k);
        }
      }
      forall k | CommentAt(s', k).Some?
        ensures CommentOk(s', k, CommentAt(s', k).value)
      {
        assert CommentOk(s, k, CommentAt(s, k).value);
      }
    }
  }

  lemma VoteCommentKeepsValid(s: Store, url: string, p: Payload, d: Direction)
    requires Valid(s)
    ensures Valid(VoteComment(s, url, p, d).0)
  {
    var id := PathId(url);
    if CommentAt(s, id).Some? && UserAt(s, p.username).Some? {
      var s' := VoteComment(s, url, p, d).0;
      assert s'.articles == s.articles && s'.users == s.users;
      assert forall k :: CommentAt(s', k).Some? <==> CommentAt(s, k).Some?;
      assert forall k :: CommentAt(s', k).Some? ==>
        CommentAt(s', k).value.articleId == CommentAt(s, k).value.articleId
        && CommentAt(s', k).value.id == CommentAt(s, k).value.id
        && CommentAt(s', k).value.username == CommentAt(s, k).value.username;
      forall k | ArticleAt(s', k).Some?
        ensures ArticleOk(s', k, ArticleAt(s', k).value)
      {
        var a := ArticleAt(s, k).value;
        assert ArticleOk(s, k, a);
        forall i | 0 <= i < |a.commentIds|
          ensures ListedIn(s', a.commentIds[i], k)
        {
          assert ListedIn(s, a.commentIds[i], k);
        }
      }
      forall k | CommentAt(s', k).Some?
        ensures CommentOk(s', k, CommentAt(s', k).value)
      {
        var c := CommentAt(s, k).value;
        assert CommentOk(s, k, c);
        if k == id {
          CastKeepsExclusive(c.votes, p.username.value, d);
        } else {
          assert CommentAt(s', k) == CommentAt(s, k);
        }
      }
    }
  }

  lemma DeleteCommentKeepsValid(s: Store, url: string)
    requires Valid(s)
    ensures ArticleOfCommentLive(s, RawPathId(url))
    ensures Valid(DeleteComment(s, url).0)
  {
    ValidCompletes(s, "DELETE", url);
    var id := RawPathId(url);
    if LiveWithAuthor(s, id) {
      var s' := DeleteComment(s, url).0;
      var c := CommentAt(s, id).value;
      var target := ArticleAt(s, c.articleId).value;
      assert CommentOk(s, id, c);
      assert ArticleOk(s, c.articleId, target);
      RemoveDistinct(target.commentIds, id);
      assert forall k :: CommentAt(s', k) == if k == id then None else CommentAt(s, k);
      assert forall k :: k != c.articleId ==> ArticleAt(s', k) == ArticleAt(s, k);
      DetachCommentKeepsValid(s, id, s');
    }
  }

  /** Tombstoning live comment `id` and striking it from its article's
      list -- and from nothing else -- keeps the invariant. */
  lemma DetachCommentKeepsValid(s: Store, id: nat, s': Store)
    requires Valid(s) && CommentAt(s, id).Some?
    requires forall k :: CommentAt(s', k) == if k == id then None else CommentAt(s, k)
    requires var aid := CommentAt(s, id).value.articleId;
      && ArticleAt(s, aid).Some?
      && (forall k :: k != aid ==> ArticleAt(s', k) == ArticleAt(s, k))
      && ArticleAt(s', aid).Some?
      && ArticleAt(s', aid).value.id == aid
      && ArticleAt(s', aid).value.username == ArticleAt(s, aid).value.username
      && ArticleAt(s', aid).value.votes == ArticleAt(s, aid).value.votes
      && Distinct(ArticleAt(s', aid).value.commentIds)
      && forall x :: x in ArticleAt(s', aid).value.commentIds <==> x in ArticleAt(s, aid).value.commentIds && x != id
    requires s'.articles.Keys == s.articles.Keys && s'.comments.Keys == s.comments.Keys
    requires s'.users.Keys == s.users.Keys
    requires forall u :: u in s.users ==> s'.users[u].username == s.users[u].username
    requires s'.nextArticleId == s.nextArticleId && s'.nextCommentId == s.nextCommentId
    ensures Valid(s')
  {
    var aid := CommentAt(s, id).value.articleId;
    var remaining := ArticleAt(s', aid).value.commentIds;
    forall k | ArticleAt(s', k).Some?
      ensures ArticleOk(s', k, ArticleAt(s', k).value)
    {
      var a := ArticleAt(s, k).value;
      var a' := ArticleAt(s', k).value;
      assert ArticleOk(s, k, a);
      forall i | 0 <= i < |a'.commentIds|
        ensures ListedIn(s', a'.commentIds[i], k)
      {
        var x := a'.commentIds[i];
        assert x in a.commentIds;
        var j :| 0 <= j < |a.commentIds| && a.commentIds[j] == x;
        assert ListedIn(s, a.commentIds[j], k);
      }
    }
    forall k | CommentAt(s', k).Some?
      ensures CommentOk(s', k, CommentAt(s', k).value)
    {
      var ck := CommentAt(s, k).value;
      assert CommentOk(s, k, ck);
      if ck.articleId == aid {
        assert k in remaining;
      }
    }
  }

  /** What `DeleteArticle` does to the two entity maps, read through
      lookups. */
  lemma DeleteArticleEffect(s: Store, url: string, s': Store)
    requires ArticleAt(s, PathId(url)).Some? && CascadeSafe(s, ArticleAt(s, PathId(url)).value)
    requires s' == DeleteArticle(s, url).0
    ensures forall k :: ArticleAt(s', k) == if k == PathId(url) then None else ArticleAt(s, k)
    ensures var listed := ArticleAt(s, PathId(url)).value.commentIds;
      forall k :: CommentAt(s', k) == if k in listed then None else CommentAt(s, k)
    ensures s'.users.Keys == s.users.Keys
    ensures s'.nextArticleId == s.nextArticleId && s'.nextCommentId == s.nextCommentId
    ensures forall u :: u in s.users ==> s'.users[u].username == s.users[u].username
  {
  }

  /** Tombstoning article `id` together with exactly the comments it lists
      keeps the invariant, whatever happens to the users' id lists. */
  lemma TombstoneCascadeKeepsValid(s: Store, id: nat, s': Store)
    requires Valid(s) && ArticleAt(s, id).Some?
    requires forall k :: ArticleAt(s', k) == if k == id then None else ArticleAt(s, k)
    requires var listed := ArticleAt(s, id).value.commentIds;
      forall k :: CommentAt(s', k) == if k in listed then None else CommentAt(s, k)
    requires s'.articles.Keys == s.articles.Keys && s'.comments.Keys == s.comments.Keys
    requires s'.users.Keys == s.users.Keys
    requires s'.nextArticleId == s.nextArticleId && s'.nextCommentId == s.nextCommentId
    requires forall u :: u in s.users ==> s'.users[u].username == s.users[u].username
    ensures Valid(s')
  {
    var gone := ArticleAt(s, id).value;
    assert ArticleOk(s, id, gone);
    forall k | ArticleAt(s', k).Some?
      ensures ArticleOk(s', k, ArticleAt(s', k).value)
    {
      var a := ArticleAt(s, k).value;
      assert k != id && ArticleAt(s', k).value == a;
      assert ArticleOk(s, k, a);
      forall i | 0 <= i < |a.commentIds|
        ensures ListedIn(s', a.commentIds[i], k)
      {
        var x := a.commentIds[i];
        assert ListedIn(s, x, k);
        forall j | 0 <= j < |gone.commentIds|
          ensures gone.commentIds[j] != x
        {
          assert ListedIn(s, gone.commentIds[j], id);
        }
      }
    }
    forall k | CommentAt(s', k).Some?
      ensures CommentOk(s', k, CommentAt(s', k).value)
    {
      assert k !in gone.commentIds;
      var c := CommentAt(s, k).value;
      assert CommentOk(s, k, c);
      assert c.articleId != id;
    }
  }

  lemma DeleteArticleKeepsValid(s: Store, url: string)
    requires Valid(s)
    ensures ArticleAt(s, PathId(url)).Some? ==> CascadeSafe(s, ArticleAt(s, PathId(url)).value)
    ensures Valid(DeleteArticle(s, url).0)
  {
    ValidCompletes(s, "DELETE", url);
    if ArticleAt(s, PathId(url)).Some? {
      var s' := DeleteArticle(s, url).0;
      DeleteArticleEffect(s, url, s');
      TombstoneCascadeKeepsValid(s, PathId(url), s');
    }
  }

  // -----------------------------------------------------------------------
  // Users' article lists
  // -----------------------------------------------------------------------

  /** Article `aid` is live and owned by `u`. */
  predicate OwnedBy(s: Store, aid: nat, u: string) {
    ArticleAt(s, aid).Some? && ArticleAt(s, aid).value.username == u
  }

  /** Every user's `articleIds` names, once each, exactly the live articles
      the user owns: the bookkeeping `getUser` relies on to show no `null`
      article and to miss none. */
  ghost predicate UserArticlesExact(s: Store) {
    forall u :: u in s.users ==>
      && Distinct(s.users[u].articleIds)
      && forall x :: x in s.users[u].articleIds <==> OwnedBy(s, x, u)
  }

  /** A request that changes neither which articles are live, nor their
      owners, nor any article list keeps the lists exact. */
  lemma OwnershipUnchanged(s: Store, s': Store)
    requires UserArticlesExact(s)
    requires s'.users.Keys == s.users.Keys
    requires forall u :: u in s.users ==> s'.users[u].articleIds == s.users[u].articleIds
    requires forall x, u :: OwnedBy(s', x, u) == OwnedBy(s, x, u)
    ensures UserArticlesExact(s')
  {
  }

  lemma GetOrCreateUserKeepsArticlesExact(s: Store, p: Payload)
    requires Valid(s) && UserArticlesExact(s)
    ensures UserArticlesExact(GetOrCreateUser(s, p).0)
  {
    var s' := GetOrCreateUser(s, p).0;
    assert s'.articles == s.articles;
    forall u | u in s'.users
      ensures Distinct(s'.users[u].articleIds)
      ensures forall x :: x in s'.users[u].articleIds <==> OwnedBy(s', x, u)
    {
      if u !in s.users {
        assert s'.users[u].articleIds == [];
        forall x
          ensures !OwnedBy(s', x, u)
        {
          if ArticleAt(s, x).Some? {
            assert ArticleOk(s, x, ArticleAt(s, x).value);
          }
        }
      }
    }
  }

  lemma CreateArticleKeepsArticlesExact(s: Store, p: Payload)
    requires Valid(s) && UserArticlesExact(s)
    ensures UserArticlesExact(CreateArticle(s, p).0)
  {
    if ArticleAccepted(s, p) {
      var s' := CreateArticle(s, p).0;
      var id := s.nextArticleId;
      var owner := p.article.value.username.value;
      assert id !in s.articles;
      assert !OwnedBy(s, id, owner);
      PushDistinct(s.users[owner].articleIds, id);
      forall u | u in s'.users
        ensures Distinct(s'.users[u].articleIds)
        ensures forall x :: x in s'.users[u].articleIds <==> OwnedBy(s', x, u)
      {
        forall x
          ensures x in s'.users[u].articleIds <==> OwnedBy(s', x, u)
        {
          assert OwnedBy(s', x, u) <==> OwnedBy(s, x, u) || (x == id && u == owner);
        }
      }
    }
  }

  lemma DeleteArticleKeepsArticlesExact(s: Store, url: string)
    requires Valid(s) && UserArticlesExact(s)
    ensures ArticleAt(s, PathId(url)).Some? ==> CascadeSafe(s, ArticleAt(s, PathId(url)).value)
    ensures UserArticlesExact(DeleteArticle(s, url).0)
  {
    ValidCompletes(s, "DELETE", url);
    var id := PathId(url);
    if ArticleAt(s, id).Some? {
      var r := DeleteArticle(s, url).0;
      DeleteArticleEffect(s, url, r);
      DisownKeepsArticlesExact(s, id, r);
    }
  }

  /** Tombstoning article `id` and splicing it out of its owner's list --
      and out of no other list -- keeps the lists exact. */
  lemma DisownKeepsArticlesExact(s: Store, id: nat, r: Store)
    requires UserArticlesExact(s) && ArticleAt(s, id).Some?
    requires ArticleAt(s, id).value.username in s.users
    requires forall x :: ArticleAt(r, x) == if x == id then None else ArticleAt(s, x)
    requires r.users.Keys == s.users.Keys
    requires var o := ArticleAt(s, id).value.username;
      && r.users[o].articleIds == SpliceOne(s.users[o].articleIds, IndexOf(s.users[o].articleIds, id))
      && forall u :: u in s.users && u != o ==> r.users[u].articleIds == s.users[u].articleIds
    ensures UserArticlesExact(r)
  {
    var o := ArticleAt(s, id).value.username;
    assert OwnedBy(s, id, o);
    RemoveDistinct(s.users[o].articleIds, id);
    forall u | u in r.users
      ensures Distinct(r.users[u].articleIds)
      ensures forall x :: x in r.users[u].articleIds <==> OwnedBy(r, x, u)
    {
      forall x
        ensures x in r.users[u].articleIds <==> OwnedBy(r, x, u)
      {
        assert OwnedBy(r, x, u) <==> OwnedBy(s, x, u) && x != id;
      }
    }
  }

  /** The article handlers that only rewrite fields or votes, and every
      comment handler, leave ownership alone. */
  lemma UpdateArticleKeepsArticlesExact(s: Store, url: string, p: Payload)
    requires UserArticlesExact(s)
    ensures UserArticlesExact(UpdateArticle(s, url, p).0)
  {
    ArticleFieldsKeepOwnership(s, UpdateArticle(s, url, p).0);
  }

  lemma VoteArticleKeepsArticlesExact(s: Store, url: string, p: Payload, d: Direction)
    requires UserArticlesExact(s)
    ensures UserArticlesExact(VoteArticle(s, url, p, d).0)
  {
    ArticleFieldsKeepOwnership(s, VoteArticle(s, url, p, d).0);
  }

  lemma CreateCommentKeepsArticlesExact(s: Store, p: Payload)
    requires UserArticlesExact(s)
    ensures UserArticlesExact(CreateComment(s, p).0)
  {
    ArticleFieldsKeepOwnership(s, CreateComment(s, p).0);
  }

  lemma UpdateCommentKeepsArticlesExact(s: Store, url: string, p: Payload)
    requires UserArticlesExact(s)
    ensures UserArticlesExact(UpdateComment(s, url, p).0)
  {
    ArticleFieldsKeepOwnership(s, UpdateComment(s, url, p).0);
  }

  lemma DeleteCommentKeepsArticlesExact(s: Store, url: string)
    requires UserArticlesExact(s) && ArticleOfCommentLive(s, RawPathId(url))
    ensures UserArticlesExact(DeleteComment(s, url).0)
  {
    ArticleFieldsKeepOwnership(s, DeleteComment(s, url).0);
  }

  lemma VoteCommentKeepsArticlesExact(s: Store, url: string, p: Payload, d: Direction)
    requires UserArticlesExact(s)
    ensures UserArticlesExact(VoteComment(s, url, p, d).0)
  {
    ArticleFieldsKeepOwnership(s, VoteComment(s, url, p, d).0);
  }

  /** What the handlers that keep ownership have in common. */
  lemma ArticleFieldsKeepOwnership(s: Store, s': Store)
    requires UserArticlesExact(s)
    requires s'.users.Keys == s.users.Keys
    requires forall u :: u in s.users ==> s'.users[u].articleIds == s.users[u].articleIds
    requires forall x :: ArticleAt(s', x).Some? == ArticleAt(s, x).Some?
    requires forall x :: ArticleAt(s, x).Some? ==> ArticleAt(s', x).value.username == ArticleAt(s, x).value.username
    ensures UserArticlesExact(s')
  {
    assert forall x, u :: OwnedBy(s', x, u) == OwnedBy(s, x, u);
    OwnershipUnchanged(s, s');
  }

  // -----------------------------------------------------------------------
  // Every request keeps the invariant
  // -----------------------------------------------------------------------

  /** Whatever the method, url and parsed body, a request on a valid store runs to
      completion and leaves a valid store behind. */
  lemma DispatchKeepsValid(s: Store, verb: string, url: string, p: Payload)
    requires Valid(s)
    ensures Router.Completes(s, verb, url)
    ensures Valid(Router.Dispatch(s, verb, url, p).0)
  {
    ValidCompletes(s, verb, url);
    if verb != "OPTIONS" {
      match Router.Lookup(verb, url)
      case None =>
      case Some(h) =>
        var q := if verb == "GET" || verb == "DELETE" then NoPayload else p;
        match h
        case GetOrCreateUser => GetOrCreateUserKeepsValid(s, q);
        case GetUser =>
        case GetArticles =>
        case CreateArticle => CreateArticleKeepsValid(s, q);
        case GetArticle =>
        case UpdateArticle => UpdateArticleKeepsValid(s, url, q);
        case DeleteArticle => DeleteArticleKeepsValid(s, url);
        case UpvoteArticle => VoteArticleKeepsValid(s, url, q, Up);
        case DownvoteArticle => VoteArticleKeepsValid(s, url, q, Down);
        case CreateComment => CreateCommentKeepsValid(s, q);
        case UpdateComment => UpdateCommentKeepsValid(s, url, q);
        case DeleteComment => DeleteCommentKeepsValid(s, url);
        case UpvoteComment => VoteCommentKeepsValid(s, url, q, Up);
        case DownvoteComment => VoteCommentKeepsValid(s, url, q, Down);
    }
  }

  /** One HTTP request as the dispatcher sees it. */
  datatype Request = Request(verb: string, url: string, payload: Payload)

  /** Serving `requests` one after another, strictly in sequence, from a
      valid store: every request runs to completion, and the statuses come
      back in order. */
  function Serve(s: Store, requests: seq<Request>): (r: (Store, seq<nat>))
    requires Valid(s)
    ensures Valid(r.0)
    ensures |r.1| == |requests|
    ensures r.0.nextArticleId >= s.nextArticleId && r.0.nextCommentId >= s.nextCommentId
    decreases |requests|
  {
    if |requests| == 0 then (s, [])
    else
      var q := requests[0];
      DispatchKeepsValid(s, q.verb, q.url, q.payload);
      var (s1, resp) := Router.Dispatch(s, q.verb, q.url, q.payload);
      var (s2, statuses) := Serve(s1, requests[1..]);
      (s2, [resp.status] + statuses)
  }

  /** A server started on an empty database never reaches a store that
      breaks the invariant, whatever requests (with parsed bodies) it is sent. */
  lemma ReachableStoresValid(requests: seq<Request>)
    ensures Valid(Serve(EmptyStore, requests).0)
  {
    EmptyStoreValid();
  }

  /** Whatever the method, url and parsed body, a request on a valid store with
      exact article lists leaves the lists exact. */
  lemma DispatchKeepsArticlesExact(s: Store, verb: string, url: string, p: Payload)
    requires Valid(s) && UserArticlesExact(s)
    ensures Router.Completes(s, verb, url)
    ensures UserArticlesExact(Router.Dispatch(s, verb, url, p).0)
  {
    ValidCompletes(s, verb, url);
    if verb != "OPTIONS" {
      match Router.Lookup(verb, url)
      case None =>
      case Some(h) =>
        var q := if verb == "GET" || verb == "DELETE" then NoPayload else p;
        assert Router.Dispatch(s, verb, url, p) == Router.Run(s, h, url, q);
        RunKeepsArticlesExact(s, h, url, q);
    }
  }

  lemma RunKeepsArticlesExact(s: Store, h: Router.Handler, url: string, p: Payload)
    requires Valid(s) && UserArticlesExact(s)
    requires h == Router.DeleteArticle ==>
      var id := PathId(url);
      ArticleAt(s, id).Some? ==> CascadeSafe(s, ArticleAt(s, id).value)
    requires h == Router.DeleteComment ==> ArticleOfCommentLive(s, RawPathId(url))
    ensures UserArticlesExact(Router.Run(s, h, url, p).0)
  {
    match h
    case GetOrCreateUser => GetOrCreateUserKeepsArticlesExact(s, p);
    case GetUser =>
    case GetArticles =>
    case CreateArticle => CreateArticleKeepsArticlesExact(s, p);
    case GetArticle =>
    case UpdateArticle => UpdateArticleKeepsArticlesExact(s, url, p);
    case DeleteArticle => DeleteArticleKeepsArticlesExact(s, url);
    case UpvoteArticle => VoteArticleKeepsArticlesExact(s, url, p, Up);
    case DownvoteArticle => VoteArticleKeepsArticlesExact(s, url, p, Down);
    case CreateComment => CreateCommentKeepsArticlesExact(s, p);
    case UpdateComment => UpdateCommentKeepsArticlesExact(s, url, p);
    case DeleteComment => DeleteCommentKeepsArticlesExact(s, url);
    case UpvoteComment => VoteCommentKeepsArticlesExact(s, url, p, Up);
    case DownvoteComment => VoteCommentKeepsArticlesExact(s, url, p, Down);
  }

  lemma {:induction false} ServeKeepsArticlesExact(s: Store, requests: seq<Request>)
    requires Valid(s) && UserArticlesExact(s)
    ensures UserArticlesExact(Serve(s, requests).0)
    decreases |requests|
  {
    if |requests| > 0 {
      var q := requests[0];
      DispatchKeepsValid(s, q.verb, q.url, q.payload);
      DispatchKeepsArticlesExact(s, q.verb, q.url, q.payload);
      var s1 := Router.Dispatch(s, q.verb, q.url, q.payload).0;
      ServeKeepsArticlesExact(s1, requests[1..]);
    }
  }

  /** A server started on an empty database keeps every user's article
      list exact, whatever it is sent -- the cascade bug of `deleteArticle`
      touches only the comment lists. */
  lemma ReachableArticlesExact(requests: seq<Request>)
    ensures UserArticlesExact(Serve(EmptyStore, requests).0)
  {
    EmptyStoreValid();
    ServeKeepsArticlesExact(EmptyStore, requests);
  }
}

=== FILE: js.dfy ===
/**
  The small part of JavaScript's semantics that the forum server leans on:
  truthiness of possibly-undefined strings, `Array.prototype.indexOf`,
  `Array.prototype.splice(start, 1)`, `String.prototype.split('/')`, the
  `filter(segment => segment)` idiom, and `Number()` applied to a path
  segment.
*/
module Js {

  /** A JavaScript value that may be `undefined`. */
  datatype Option<+T> = None | Some(value: T)

  /** A string-valued field is truthy when it is defined and not empty. */
  predicate Truthy(o: Option<string>) {
    o.Some? && o.value != ""
  }

  /** `given || fallback` for a string field. */
  function Or(given: Option<string>, fallback: string): (r: string)
    ensures Truthy(given) ==> r == given.value
    ensures !Truthy(given) ==> r == fallback
  {
    if Truthy(given) then given.value else fallback
  }

  /** Applying the same `field = given || field` update twice is applying
      it once, and a field that holds a truthy value keeps one. */
  lemma OrSettles(given: Option<string>, fallback: string)
    ensures Or(given, Or(given, fallback)) == Or(given, fallback)
    ensures fallback != "" ==> Or(given, fallback) != ""
  {
  }

  predicate Distinct<T(==)>(s: seq<T>) {
    forall i, j :: 0 <= i < j < |s| ==> s[i] != s[j]
  }

  // ---------------------------------------------------------------------
  // indexOf and splice
  // ---------------------------------------------------------------------

  /** `s.indexOf(x)`: the first position holding `x`, or -1. */
  function IndexOf<T(==)>(s: seq<T>, x: T): (i: int)
    ensures -1 <= i < |s|
    ensures i == -1 <==> x !in s
    ensures 0 <= i ==> s[i] == x && x !in s[..i]
  {
    if |s| == 0 then -1
    else if s[0] == x then 0
    else
      var j := IndexOf(s[1..], x);
      if j == -1 then -1
      else
        assert s[..j + 1] == [s[0]] + s[1..][..j];
        j + 1
  }

  /** The position `splice(start, ...)` actually starts at: a negative start
      counts back from the end (clamped at 0), a start past the end is
      clamped to the length. */
  function SpliceStart(len: nat, start: int): (k: nat)
    ensures k <= len
  {
    if start < 0 then (if len + start < 0 then 0 else len + start)
    else if start > len then len
    else start
  }

  /** The array left behind by `s.splice(start, 1)`. */
  function SpliceOne<T>(s: seq<T>, start: int): (r: seq<T>)
    ensures |s| == 0 ==> r == s
    ensures |s| > 0 && -|s| <= start < |s| ==> |r| == |s| - 1
    ensures 0 <= start < |s| ==> r == s[..start] + s[start + 1..]
    ensures -|s| <= start < 0 ==> r == s[..|s| + start] + s[|s| + start + 1..]
    ensures 0 < |s| && start < -|s| ==> r == s[1..]
    ensures start >= |s| ==> r == s
  {
    var k := SpliceStart(|s|, start);
    if k < |s| then s[..k] + s[k + 1..] else s
  }

  /** Splicing out one element at a position inside the array: the rest,
      in order. */
  lemma SpliceInside<T>(s: seq<T>, i: int)
    requires 0 <= i < |s|
    ensures SpliceOne(s, i) == s[..i] + s[i + 1..]
    ensures s == s[..i] + [s[i]] + s[i + 1..]
  {
    assert SpliceStart(|s|, i) == i;
  }

  /** The idiom `s.splice(s.indexOf(x), 1)` with `x` present removes exactly
      one copy of `x` and no other element. */
  lemma RemovePresent<T>(s: seq<T>, x: T)
    requires x in s
    ensures var r := SpliceOne(s, IndexOf(s, x));
      && |r| == |s| - 1
      && multiset(r) == multiset(s) - multiset{x}
  {
    var i := IndexOf(s, x);
    SpliceInside(s, i);
    var a, b := s[..i], s[i + 1..];
    assert multiset(s) == multiset(a) + multiset{x} + multiset(b);
    assert multiset(a + b) == multiset(a) + multiset(b);
  }

  /** With `x` absent, `indexOf` yields -1 and the same idiom drops the LAST
      element instead (and leaves an empty array alone). */
  lemma RemoveAbsent<T>(s: seq<T>, x: T)
    requires x !in s
    ensures SpliceOne(s, IndexOf(s, x)) == if |s| == 0 then s else s[..|s| - 1]
  {
  }

  /** On a duplicate-free array, removing a present element leaves a
      duplicate-free array holding exactly the other elements. */
  lemma RemoveDistinct<T>(s: seq<T>, x: T)
    requires x in s && Distinct(s)
    ensures var r := SpliceOne(s, IndexOf(s, x));
      && Distinct(r)
      && forall y :: y in r <==> y in s && y != x
  {
    var i := IndexOf(s, x);
    SpliceInside(s, i);
    RemoveKeepsDistinct(s, i);
    RemoveKeepsOthers(s, i);
  }

  lemma RemoveKeepsDistinct<T>(s: seq<T>, i: int)
    requires 0 <= i < |s| && Distinct(s)
    ensures Distinct(s[..i] + s[i + 1..])
  {
    var r := s[..i] + s[i + 1..];
    forall a, b | 0 <= a < b < |r|
      ensures r[a] != r[b]
    {
      var a' := if a < i then a else a + 1;
      var b' := if b < i then b else b + 1;
      assert r[a] == s[a'] && r[b] == s[b'] && a' < b';
    }
  }

  lemma RemoveKeepsOthers<T>(s: seq<T>, i: int)
    requires 0 <= i < |s| && Distinct(s)
    ensures forall y :: y in s[..i] + s[i + 1..] <==> y in s && y != s[i]
  {
    var r := s[..i] + s[i + 1..];
    forall y
      ensures y in r <==> y in s && y != s[i]
    {
      if y in r {
        var a :| 0 <= a < |r| && r[a] == y;
        var a' := if a < i then a else a + 1;
        assert s[a'] == y && a' != i;
      }
      if y in s && y != s[i] {
        var a :| 0 <= a < |s| && s[a] == y;
        assert a != i;
        assert r[if a < i then a else a - 1] == y;
      }
    }
  }

  /** Pushing a fresh element keeps an array duplicate-free. */
  lemma PushDistinct<T>(s: seq<T>, x: T)
    requires Distinct(s) && x !in s
    ensures Distinct(s + [x])
  {
  }

  // ---------------------------------------------------------------------
  // url.split('/') and filter(segment => segment)
  // ---------------------------------------------------------------------

  /** `s.split('/')`: always at least one piece, and no piece holds '/'. */
  function Split(s: string): (parts: seq<string>)
    ensures |parts| >= 1
    ensures forall i :: 0 <= i < |parts| ==> '/' !in parts[i]
  {
    if |s| == 0 then [""]
    else
      var rest := Split(s[1..]);
      if s[0] == '/' then [""] + rest
      else [[s[0]] + rest[0]] + rest[1..]
  }

  /** `parts.join('/')`. */
  function Join(parts: seq<string>): string
    requires |parts| >= 1
  {
    if |parts| == 1 then parts[0] else parts[0] + "/" + Join(parts[1..])
  }

  /** Splitting loses nothing: joining the pieces back gives the string. */
  lemma {:induction false} JoinSplit(s: string)
    ensures Join(Split(s)) == s
  {
    if |s| > 0 {
      var rest := Split(s[1..]);
      JoinSplit(s[1..]);
      if s[0] == '/' {
        assert Split(s)[1..] == rest;
        assert s == "/" + s[1..];
      } else {
        var parts := Split(s);
        if |rest| == 1 {
          assert parts == [[s[0]] + rest[0]];
        } else {
          assert parts[1..] == rest[1..];
          assert Join(rest) == rest[0] + "/" + Join(rest[1..]);
        }
        assert s == [s[0]] + s[1..];
      }
    }
  }

  /** `parts.filter(segment => segment)`: the non-empty pieces, in order. */
  function NonEmpty(parts: seq<string>): (r: seq<string>)
    ensures |r| <= |parts|
    ensures forall i :: 0 <= i < |r| ==> r[i] != "" && r[i] in parts
    ensures forall p :: p in parts && p != "" ==> p in r
  {
    if |parts| == 0 then []
    else if parts[0] == "" then NonEmpty(parts[1..])
    else [parts[0]] + NonEmpty(parts[1..])
  }

  /** `filter` works piece by piece: filtering a concatenation is
      concatenating the filtered parts, so the kept pieces stay in order and
      each keeps its multiplicity. */
  lemma {:induction false} NonEmptyConcat(a: seq<string>, b: seq<string>)
    ensures NonEmpty(a + b) == NonEmpty(a) + NonEmpty(b)
  {
    if |a| > 0 {
      assert (a + b)[0] == a[0];
      assert (a + b)[1..] == a[1..] + b;
      NonEmptyConcat(a[1..], b);
    } else {
      assert a + b == b;
    }
  }

  /** The non-empty '/'-separated segments of a url. */
  function Segments(url: string): (seg: seq<string>)
    ensures forall i :: 0 <= i < |seg| ==> seg[i] != "" && '/' !in seg[i]
  {
    NonEmpty(Split(url))
  }

  /** `a[i]`: `undefined` past the end. */
  function At(a: seq<string>, i: nat): (r: Option<string>)
    ensures r.Some? <==> i < |a|
  {
    if i < |a| then Some(a[i]) else None
  }

  /** String concatenation's view of a possibly-undefined value. */
  function ToStr(o: Option<string>): string {
    match o
    case Some(t) => t
    case None => "undefined"
  }

  /** Rebuilds the path whose segments are `seg`. */
  function Path(seg: seq<string>): string {
    if |seg| == 0 then "" else "/" + seg[0] + Path(seg[1..])
  }

  /** Reading the segments of a path built from non-empty, slash-free
      segments gives those segments back. */
  lemma {:induction false} SegmentsOfPath(seg: seq<string>)
    requires forall i :: 0 <= i < |seg| ==> seg[i] != "" && '/' !in seg[i]
    ensures Segments(Path(seg)) == seg
  {
    if |seg| == 0 {
      assert Split("") == [""];
    } else {
      var w := seg[0];
      var tail := Path(seg[1..]);
      var rest := Split(tail);
      SegmentsOfPath(seg[1..]);
      SplitPrefix(w, tail);
      assert rest[0] == "" by {
        if |seg[1..]| == 0 {
          assert tail == "";
        } else {
          assert tail[0] == '/';
        }
      }
      var p := Path(seg);
      assert p == "/" + (w + tail);
      assert p[1..] == w + tail;
      assert w + rest[0] == w;
      assert Split(p) == [""] + Split(w + tail);
      assert Split(p) == [""] + ([w] + rest[1..]);
      NonEmptySkip([w] + rest[1..]);
      NonEmptyKeep(w, rest[1..]);
      assert rest == [""] + rest[1..];
      NonEmptySkip(rest[1..]);
      assert seg == [w] + seg[1..];
    }
  }

  lemma NonEmptySkip(parts: seq<string>)
    ensures NonEmpty([""] + parts) == NonEmpty(parts)
  {
    assert ([""] + parts)[1..] == parts;
  }

  lemma NonEmptyKeep(w: string, parts: seq<string>)
    requires w != ""
    ensures NonEmpty([w] + parts) == [w] + NonEmpty(parts)
  {
    assert ([w] + parts)[1..] == parts;
  }

  /** Splitting a slash-free word followed by `tail` glues the word onto the
      first piece of `tail`. */
  lemma {:induction false} SplitPrefix(w: string, tail: string)
    requires '/' !in w
    ensures var rest := Split(tail);
      Split(w + tail) == [w + rest[0]] + rest[1..]
  {
    if |w| > 0 {
      var rest := Split(tail);
      SplitPrefix(w[1..], tail);
      assert (w + tail)[1..] == w[1..] + tail;
      assert (w + tail)[0] == w[0] != '/';
      var r := Split(w[1..] + tail);
      assert r == [w[1..] + rest[0]] + rest[1..];
      assert Split(w + tail) == [[w[0]] + r[0]] + r[1..];
      assert r[1..] == rest[1..];
      assert [w[0]] + (w[1..] + rest[0]) == w + rest[0];
    } else {
      var rest := Split(tail);
      assert w + tail == tail;
      assert w + rest[0] == rest[0];
      assert rest == [rest[0]] + rest[1..];
    }
  }

  // ---------------------------------------------------------------------
  // Number(segment)
  // ---------------------------------------------------------------------

  predicate IsDigit(c: char) {
    '0' <= c <= '9'
  }

  predicate AllDigits(t: string) {
    forall i :: 0 <= i < |t| ==> IsDigit(t[i])
  }

  /** The value of a string of decimal digits. */
  function DecimalValue(t: string): nat
    requires AllDigits(t)
  {
    if |t| == 0 then 0
    else DecimalValue(t[..|t| - 1]) * 10 + (t[|t| - 1] as int - '0' as int)
  }

  /** The decimal spelling of `n`, without leading zeros. */
  function DecimalString(n: nat): (t: string)
    ensures |t| >= 1 && AllDigits(t)
  {
    var d := ['0' + (n % 10) as char];
    if n < 10 then d else DecimalString(n / 10) + d
  }

  /** `Number(segment)` as a truthiness-preserving natural: an id. Both `0`
      and `NaN` (an undefined or non-numeric segment) are falsy, and both
      come out as 0. */
  function NumberOf(segment: Option<string>): nat {
    match segment
    case None => 0
    case Some(t) => if AllDigits(t) then DecimalValue(t) else 0
  }

  /** Printing an id in decimal and reading it back with `Number` gives the
      id again. */
  lemma NumberOfDecimal(n: nat)
    ensures NumberOf(Some(DecimalString(n))) == n
  {
    DecimalRoundTrip(n);
  }

  lemma {:induction false} DecimalRoundTrip(n: nat)
    ensures DecimalValue(DecimalString(n)) == n
  {
    var t := DecimalString(n);
    if n >= 10 {
      DecimalRoundTrip(n / 10);
      assert t[..|t| - 1] == DecimalString(n / 10);
    }
  }
}

=== FILE: model.dfy ===
/**
  The forum's in-memory database (server.js lines 6-12): users keyed by
  username, articles and comments keyed by numeric id, and the two id
  counters. A deleted article or comment keeps its slot, set to `null`; here
  that tombstone is `None`.
*/
module Model {
  import opened Js

  /** Who voted an item up and who voted it down, in arrival order. The
      source keeps these two arrays directly on the article or comment. */
  datatype Votes = Votes(upvotedBy: seq<string>, downvotedBy: seq<string>)

  const NoVotes := Votes([], [])

  datatype User = User(username: string, articleIds: seq<nat>, commentIds: seq<nat>)

  datatype Article = Article(
    id: nat,
    title: string,
    url: string,
    username: string,
    commentIds: seq<nat>,
    votes: Votes)

  datatype Comment = Comment(
    id: nat,
    articleId: nat,
    body: string,
    username: string,
    votes: Votes)

  datatype Store = Store(
    users: map<string, User>,
    articles: map<nat, Option<Article>>,
    comments: map<nat, Option<Comment>>,
    nextArticleId: nat,
    nextCommentId: nat)

  /** The database a fresh process starts with. */
  const EmptyStore := Store(map[], map[], map[], 1, 1)

  /** `database.users[name]`; an undefined name finds nobody. */
  function UserAt(s: Store, name: Option<string>): (r: Option<User>)
    ensures r.Some? <==> name.Some? && name.value in s.users
  {
    if name.Some? && name.value in s.users then Some(s.users[name.value]) else None
  }

  /** `database.articles[id]`: `None` for an id never used and for a
      tombstone alike (both are falsy in the source). */
  function ArticleAt(s: Store, id: nat): (r: Option<Article>)
    ensures r.Some? <==> id in s.articles && s.articles[id].Some?
  {
    if id in s.articles then s.articles[id] else None
  }

  /** `database.comments[id]`, read the same way. */
  function CommentAt(s: Store, id: nat): (r: Option<Comment>)
    ensures r.Some? <==> id in s.comments && s.comments[id].Some?
  {
    if id in s.comments then s.comments[id] else None
  }

  // -----------------------------------------------------------------------
  // Requests and responses
  // -----------------------------------------------------------------------

  /** `request.body.article`: each field may be undefined. */
  datatype ArticleFields = ArticleFields(title: Option<string>, url: Option<string>, username: Option<string>)

  /** `request.body.comment`; `articleId` is 0 when undefined or falsy. */
  datatype CommentFields = CommentFields(body: Option<string>, username: Option<string>, articleId: nat)

  /** The parsed JSON request body, as far as the handlers read it. An absent
      body reads as every field undefined. */
  datatype Payload = Payload(
    username: Option<string>,
    article: Option<ArticleFields>,
    comment: Option<CommentFields>)

  const NoPayload := Payload(None, None, None)

  /** The `body` of a handler's response descriptor. Resolved references
      (`database.articles[id]`, `database.comments[id]`) are `None` when
      they hit a tombstone or an unused id, as `null`/`undefined` would. */
  datatype Body =
    | Empty
    | UserBody(user: User)
    | UserDetail(user: User, userArticles: seq<Option<Article>>, userComments: seq<Option<Comment>>)
    | ArticleList(articles: seq<Article>)
    | ArticleBody(article: Article)
    | ArticleDetail(article: Article, comments: seq<Option<Comment>>)
    | CommentBody(comment: Comment)

  /** The `{status, body}` descriptor every handler returns. */
  datatype Response = Response(status: nat, body: Body)

  const Ok := 200
  const Created := 201
  const NoContent := 204
  const BadRequest := 400
  const NotFound := 404

  function Reject(status: nat): Response {
    Response(status, Empty)
  }
}

=== FILE: properties.dfy ===
/**
  What a client sees across requests: a rejected request changes nothing,
  reads never write, a url outside the table is a bare 400, created items
  can be fetched back, deleted ones cannot, and repeating an update or a
  vote is harmless.
*/
module Properties {
  import opened Js
  import opened Model
  import opened Voting
  import opened Handlers
  import opened Integrity
  import Router

  // -----------------------------------------------------------------------
  // The dispatcher as a whole
  // -----------------------------------------------------------------------

  /** Validation always precedes mutation: any request answered with an
      error status leaves the store exactly as it was, and so does every
      GET and every OPTIONS request. (The source's `getArticle` also stores
      the resolved comment list on the article object; that cached field is
      not part of this model, see `Handlers.GetArticle`.) */
  lemma ErrorsAndReadsChangeNothing(s: Store, verb: string, url: string, p: Payload)
    requires Router.Completes(s, verb, url)
    ensures var r := Router.Dispatch(s, verb, url, p);
      (r.1.status >= 400 || verb == "GET" || verb == "OPTIONS") ==> r.0 == s
  {
    if verb != "OPTIONS" {
      match Router.Lookup(verb, url)
      case None =>
      case Some(h) =>
        var q := if verb == "GET" || verb == "DELETE" then NoPayload else p;
        assert Router.Dispatch(s, verb, url, p) == Router.Run(s, h, url, q);
        RunErrorsChangeNothing(s, h, url, q);
        GetRoutesRead();
    }
  }

  /** The handlers that only read the store. */
  predicate IsReader(h: Router.Handler) {
    h == Router.GetUser || h == Router.GetArticles || h == Router.GetArticle
  }

  /** Every handler the table registers for GET is a reader. */
  lemma GetRoutesRead()
    ensures forall route :: Router.Registered(route, "GET") ==> IsReader(Router.Routes[route]["GET"])
  {
  }

  /** Each handler, on its own: an error status comes with the store
      untouched, and the three readers never write. */
  lemma RunErrorsChangeNothing(s: Store, h: Router.Handler, url: string, p: Payload)
    requires h == Router.DeleteArticle ==>
      var id := PathId(url);
      ArticleAt(s, id).Some? ==> CascadeSafe(s, ArticleAt(s, id).value)
    requires h == Router.DeleteComment ==> ArticleOfCommentLive(s, RawPathId(url))
    ensures var r := Router.Run(s, h, url, p);
      && (r.1.status >= 400 ==> r.0 == s)
      && (IsReader(h) ==> r.0 == s)
  {
    if h.UpvoteArticle? || h.DownvoteArticle? || h.UpvoteComment? || h.DownvoteComment? {
      assert !IsReader(h);
      VoteRunErrorsChangeNothing(s, h, url, p);
    } else if h.DeleteArticle? || h.DeleteComment? {
      assert !IsReader(h);
      DeleteRunErrorsChangeNothing(s, h, url, p);
    } else {
      OtherRunErrorsChangeNothing(s, h, url, p);
    }
  }

  lemma VoteRunErrorsChangeNothing(s: Store, h: Router.Handler, url: string, p: Payload)
    requires h.UpvoteArticle? || h.DownvoteArticle? || h.UpvoteComment? || h.DownvoteComment?
    ensures var r := Router.Run(s, h, url, p);
      r.1.status >= 400 ==> r.0 == s
  {
    match h
    case UpvoteArticle => assert Router.Run(s, h, url, p) == VoteArticle(s, url, p, Up);
    case DownvoteArticle => assert Router.Run(s, h, url, p) == VoteArticle(s, url, p, Down);
    case UpvoteComment => assert Router.Run(s, h, url, p) == VoteComment(s, url, p, Up);
    case DownvoteComment => assert Router.Run(s, h, url, p) == VoteComment(s, url, p, Down);
  }

  lemma DeleteRunErrorsChangeNothing(s: Store, h: Router.Handler, url: string, p: Payload)
    requires h.DeleteArticle? || h.DeleteComment?
    requires h == Router.DeleteArticle ==>
      var id := PathId(url);
      ArticleAt(s, id).Some? ==> CascadeSafe(s, ArticleAt(s, id).value)
    requires h == Router.DeleteComment ==> ArticleOfCommentLive(s, RawPathId(url))
    ensures var r := Router.Run(s, h, url, p);
      r.1.status >= 400 ==> r.0 == s
  {
    match h
    case DeleteArticle => assert Router.Run(s, h, url, p) == DeleteArticle(s, url);
    case DeleteComment => assert Router.Run(s, h, url, p) == DeleteComment(s, url);
  }

  lemma OtherRunErrorsChangeNothing(s: Store, h: Router.Handler, url: string, p: Payload)
    requires !(h.UpvoteArticle? || h.DownvoteArticle? || h.UpvoteComment? || h.DownvoteComment?)
    requires !(h.DeleteArticle? || h.DeleteComment?)
    ensures var r := Router.Run(s, h, url, p);
      && (r.1.status >= 400 ==> r.0 == s)
      && (IsReader(h) ==> r.0 == s)
  {
    match h
    case GetOrCreateUser => assert Router.Run(s, h, url, p) == GetOrCreateUser(s, p);
    case GetUser => assert Router.Run(s, h, url, p) == GetUser(s, url);
    case GetArticles => assert Router.Run(s, h, url, p) == GetArticles(s);
    case CreateArticle => assert Router.Run(s, h, url, p) == CreateArticle(s, p);
    case GetArticle => assert Router.Run(s, h, url, p) == GetArticle(s, url);
    case UpdateArticle => assert Router.Run(s, h, url, p) == UpdateArticle(s, url, p);
    case CreateComment => assert Router.Run(s, h, url, p) == CreateComment(s, p);
    case UpdateComment => assert Router.Run(s, h, url, p) == UpdateComment(s, url, p);
  }

  /** A url whose segments do not fit any pattern of the table is answered
      with a bare 400 whatever the method (bar OPTIONS), and no handler
      runs; one that fits a pattern is answered by a handler when the
      method is registered for it. */
  lemma UnservedIsBadRequest(s: Store, verb: string, url: string, p: Payload)
    requires verb != "OPTIONS" && !Router.Served(Segments(url))
    ensures Router.Completes(s, verb, url)
    ensures Router.Dispatch(s, verb, url, p) == (s, Reject(BadRequest))
  {
  }

  // -----------------------------------------------------------------------
  // Users
  // -----------------------------------------------------------------------

  /** On every reachable store a profile lists exactly the user's live
      articles: no `null` slot, nobody else's article, and none missing. */
  lemma ProfileShowsOwnArticles(s: Store, url: string)
    requires Valid(s) && UserArticlesExact(s)
    ensures var r := GetUser(s, url).1;
      r.status == Ok ==>
        var name := r.body.user.username;
        && (forall i :: 0 <= i < |r.body.userArticles| ==>
              r.body.userArticles[i].Some? && r.body.userArticles[i].value.username == name)
        && (forall k :: OwnedBy(s, k, name) ==> ArticleAt(s, k) in r.body.userArticles)
  {
    var r := GetUser(s, url).1;
    if r.status == Ok {
      var key := At(Segments(url), 1).value;
      var user := s.users[key];
      assert user.username == key;
      forall i | 0 <= i < |r.body.userArticles|
        ensures r.body.userArticles[i].Some? && r.body.userArticles[i].value.username == key
      {
        assert OwnedBy(s, user.articleIds[i], key);
      }
      forall k | OwnedBy(s, k, key)
        ensures ArticleAt(s, k) in r.body.userArticles
      {
        var i :| 0 <= i < |user.articleIds| && user.articleIds[i] == k;
        assert r.body.userArticles[i] == ArticleAt(s, k);
      }
    }
  }

  /** Posting the same username twice creates the user once: the second
      call answers 200 with the stored record and changes nothing. */
  lemma CreateUserTwice(s: Store, p: Payload)
    requires Valid(s) && Truthy(p.username)
    ensures var (s1, r1) := GetOrCreateUser(s, p);
      var (s2, r2) := GetOrCreateUser(s1, p);
      && (r1.status == Created <==> p.username.value !in s.users)
      && r2 == Response(Ok, UserBody(s1.users[p.username.value]))
      && s2 == s1
      && s1.users[p.username.value].username == p.username.value
  {
  }

  // -----------------------------------------------------------------------
  // Articles
  // -----------------------------------------------------------------------

  /** Every id a valid store uses lies below the article counter, so the
      article just created has the largest id. */
  lemma CreatedArticleIsNewest(s: Store, p: Payload)
    requires Valid(s) && ArticleAccepted(s, p)
    ensures var r := CreateArticle(s, p);
      && r.1.body == ArticleBody(ArticleAt(r.0, s.nextArticleId).value)
      && forall k: nat :: ArticleAt(r.0, k).Some? ==> k <= s.nextArticleId
  {
  }

  /** An article just created can be fetched at `/articles/<id>`, with no
      comments yet, and heads the listing. */
  lemma CreatedArticleIsServed(s: Store, p: Payload)
    requires Valid(s) && ArticleAccepted(s, p)
    ensures var (s1, r1) := CreateArticle(s, p);
      var a := r1.body.article;
      && GetArticle(s1, Router.ItemUrl("articles", a.id, None)).1 == Response(Ok, ArticleDetail(a, []))
      && |GetArticles(s1).1.body.articles| > 0
      && GetArticles(s1).1.body.articles[0] == a
  {
    var (s1, r1) := CreateArticle(s, p);
    var a := r1.body.article;
    Router.ItemUrlRoutes("articles", a.id, None);
    CreateArticleKeepsValid(s, p);
    CreatedArticleIsNewest(s, p);
    NewestHeadsListing(s1, a);
  }

  /** A live article whose id no other live article exceeds comes first in
      the listing of a valid store. */
  lemma NewestHeadsListing(s: Store, a: Article)
    requires Valid(s) && ArticleAt(s, a.id) == Some(a)
    requires forall k: nat :: ArticleAt(s, k).Some? ==> k <= a.id
    ensures |GetArticles(s).1.body.articles| > 0
    ensures GetArticles(s).1.body.articles[0] == a
  {
    ListingSorted(s);
    var list := GetArticles(s).1.body.articles;
    assert Some(a) in s.articles.Values by {
      assert s.articles[a.id] == Some(a);
    }
    assert a in list;
    var j :| 0 <= j < |list| && list[j] == a;
    var top := list[0];
    assert Some(top) in s.articles.Values;
    var k :| k in s.articles && s.articles[k] == Some(top);
    assert ArticleAt(s, k).Some?;
    assert ArticleOk(s, k, top);
    assert top.id == k <= a.id;
    assert top.id >= list[j].id;
    assert top == a;
  }

  /** On every valid store -- so on every store a running server reaches --
      the listing is strictly newest first. */
  lemma ListingSorted(s: Store)
    requires Valid(s)
    ensures var list := GetArticles(s).1.body.articles;
      forall i, j :: 0 <= i < j < |list| ==> list[i].id > list[j].id
  {
    forall k | k in s.articles && s.articles[k].Some?
      ensures s.articles[k].value.id == k
    {
      assert ArticleAt(s, k).Some?;
      assert ArticleOk(s, k, ArticleAt(s, k).value);
    }
  }

  /** After a delete, the article is gone: fetching it is a 404, no listed
      article carries its id, and no live comment refers to it. */
  lemma DeletedArticleIsGone(s: Store, url: string)
    requires Valid(s) && ArticleAt(s, PathId(url)).Some?
    ensures CascadeSafe(s, ArticleAt(s, PathId(url)).value)
    ensures var s1 := DeleteArticle(s, url).0;
      && GetArticle(s1, url).1 == Reject(NotFound)
      && (forall b :: b in GetArticles(s1).1.body.articles ==> b.id != PathId(url))
      && forall k :: CommentAt(s1, k).Some? ==> CommentAt(s1, k).value.articleId != PathId(url)
  {
    ValidCompletes(s, "DELETE", url);
    var id := PathId(url);
    var s1 := DeleteArticle(s, url).0;
    assert id in s.articles;
    DeleteArticleKeepsValid(s, url);
    forall b | b in GetArticles(s1).1.body.articles
      ensures b.id != id
    {
      var k :| k in s1.articles && s1.articles[k] == Some(b);
      assert ArticleAt(s1, k).Some?;
      assert ArticleOk(s1, k, b);
    }
    forall k | CommentAt(s1, k).Some?
      ensures CommentAt(s1, k).value.articleId != id
    {
      assert CommentOk(s1, k, CommentAt(s1, k).value);
    }
  }

  /** Updating an article twice with the same payload is updating it
      once. */
  lemma UpdateArticleIdempotent(s: Store, url: string, p: Payload)
    ensures var r := UpdateArticle(s, url, p);
      UpdateArticle(r.0, url, p) == r
  {
    var id := PathId(url);
    var r := UpdateArticle(s, url, p);
    if r.1.status == Ok {
      var a := ArticleAt(s, id).value;
      var f := p.article.value;
      var after := a.(title := Or(f.title, a.title), url := Or(f.url, a.url));
      assert r.0.articles[id] == Some(after);
      assert Or(f.title, after.title) == after.title && Or(f.url, after.url) == after.url;
      assert after.(title := Or(f.title, after.title), url := Or(f.url, after.url)) == after;
      assert r.0.articles[id := Some(after)] == r.0.articles;
    }
  }

  /** On every valid store -- so on every store a running server reaches --
      repeating a vote on an article changes nothing more. */
  lemma VoteArticleTwice(s: Store, url: string, p: Payload, d: Direction)
    requires Valid(s)
    ensures var r := VoteArticle(s, url, p, d);
      VoteArticle(r.0, url, p, d) == r
  {
    var id := PathId(url);
    if ArticleAt(s, id).Some? && UserAt(s, p.username).Some? {
      assert ArticleOk(s, id, ArticleAt(s, id).value);
      var v := ArticleAt(s, id).value.votes;
      var u := p.username.value;
      CastIdempotent(v, u, d);
      var a' := ArticleAt(s, id).value.(votes := Cast(v, u, d));
      var r := VoteArticle(s, url, p, d);
      assert r.0.articles[id] == Some(a');
      assert a'.(votes := Cast(a'.votes, u, d)) == a';
      assert r.0.articles[id := Some(a')] == r.0.articles;
    }
  }

  // -----------------------------------------------------------------------
  // Comments
  // -----------------------------------------------------------------------

  /** The same for comments. */
  lemma VoteCommentTwice(s: Store, url: string, p: Payload, d: Direction)
    requires Valid(s)
    ensures var r := VoteComment(s, url, p, d);
      VoteComment(r.0, url, p, d) == r
  {
    var id := PathId(url);
    if CommentAt(s, id).Some? && UserAt(s, p.username).Some? {
      assert CommentOk(s, id, CommentAt(s, id).value);
      var v := CommentAt(s, id).value.votes;
      var u := p.username.value;
      CastIdempotent(v, u, d);
      var c' := CommentAt(s, id).value.(votes := Cast(v, u, d));
      var r := VoteComment(s, url, p, d);
      assert r.0.comments[id] == Some(c');
      assert c'.(votes := Cast(c'.votes, u, d)) == c';
      assert r.0.comments[id := Some(c')] == r.0.comments;
    }
  }

  /** A comment just posted shows up last among its article's comments. */
  lemma CreatedCommentIsServed(s: Store, p: Payload)
    requires Valid(s) && CommentAccepted(s, p)
    ensures var c := CreateComment(s, p).1.body.comment;
      var r := GetArticle(CreateComment(s, p).0, Router.ItemUrl("articles", c.articleId, None)).1;
      && r.status == Ok
      && r.body.ArticleDetail?
      && |r.body.comments| > 0
      && r.body.comments[|r.body.comments| - 1] == Some(c)
  {
    var s1 := CreateComment(s, p).0;
    var c := CreateComment(s, p).1.body.comment;
    Router.ItemUrlRoutes("articles", c.articleId, None);
    var a := ArticleAt(s, c.articleId).value;
    var a' := a.(commentIds := a.commentIds + [c.id]);
    assert ArticleAt(s1, c.articleId) == Some(a');
    var list := ResolveComments(s1, a'.commentIds);
    assert list[|list| - 1] == CommentAt(s1, c.id) == Some(c);
  }

  /** Updating a comment twice with the same payload is updating it
      once. */
  lemma UpdateCommentIdempotent(s: Store, url: string, p: Payload)
    ensures var r := UpdateComment(s, url, p);
      UpdateComment(r.0, url, p) == r
  {
    var id := PathId(url);
    var r := UpdateComment(s, url, p);
    if r.1.status == Ok {
      var c := CommentAt(s, id).value;
      var f := p.comment.value;
      var after := c.(body := Or(f.body, c.body));
      assert r.0.comments[id] == Some(after);
      assert Or(f.body, after.body) == after.body;
      assert after.(body := Or(f.body, after.body)) == after;
      assert r.0.comments[id := Some(after)] == r.0.comments;
    }
  }
}

=== FILE: router.dfy ===
/**
  Request routing (server.js lines 14-49, 393-454): `getRequestRoute` turns
  a url into one of the pattern keys of the `routes` table, the guard
  rejects a pattern or method the table does not know with a bare 400, and
  otherwise the registered handler runs.
*/
module Router {
  import opened Js
  import opened Model
  import opened Voting
  import Handlers

  /** The handlers the `routes` table can name. */
  datatype Handler =
    | GetOrCreateUser
    | GetUser
    | GetArticles
    | CreateArticle
    | GetArticle
    | UpdateArticle
    | DeleteArticle
    | UpvoteArticle
    | DownvoteArticle
    | CreateComment
    | UpdateComment
    | DeleteComment
    | UpvoteComment
    | DownvoteComment

  /** The `routes` table: pattern, then HTTP method, to handler. */
  const Routes: map<string, map<string, Handler>> := map[
    "/users" := map["POST" := GetOrCreateUser],
    "/users/:username" := map["GET" := GetUser],
    "/articles" := map["GET" := GetArticles, "POST" := CreateArticle],
    "/articles/:id" := map["GET" := GetArticle, "PUT" := UpdateArticle, "DELETE" := DeleteArticle],
    "/articles/:id/upvote" := map["PUT" := UpvoteArticle],
    "/articles/:id/downvote" := map["PUT" := DownvoteArticle],
    "/comments" := map["POST" := CreateComment],
    "/comments/:id" := map["PUT" := UpdateComment, "DELETE" := DeleteComment],
    "/comments/:id/upvote" := map["PUT" := UpvoteComment],
    "/comments/:id/downvote" := map["PUT" := DownvoteComment]
  ]

  /** The patterns the table knows. */
  const Patterns: set<string> := {
    "/users", "/users/:username", "/articles", "/articles/:id",
    "/articles/:id/upvote", "/articles/:id/downvote", "/comments",
    "/comments/:id", "/comments/:id/upvote", "/comments/:id/downvote"}

  lemma PatternsAreRoutes()
    ensures Routes.Keys == Patterns
  {
  }

  predicate IsVote(o: Option<string>) {
    o == Some("upvote") || o == Some("downvote")
  }

  /** `getRequestRoute(url)`: defined for every url (with no segment at
      all the source concatenates `undefined` into the pattern). It lands on
      a pattern of the table exactly for the urls of `Served` shape; every
      other url, the empty path included, yields a pattern the guard
      rejects. */
  function GetRequestRoute(url: string): (route: string)
    ensures route in Routes <==> Served(Segments(url))
  {
    RouteOfKnownIffServed(Segments(url));
    RouteOf(Segments(url))
  }

  /** The pattern `getRequestRoute` builds from the non-empty segments. */
  function RouteOf(seg: seq<string>): string {
    if |seg| == 1 then "/" + seg[0]
    else if IsVote(At(seg, 2)) then "/" + seg[0] + "/:id/" + seg[2]
    else if At(seg, 0) == Some("users") then "/" + seg[0] + "/:username"
    else "/" + ToStr(At(seg, 0)) + "/:id"
  }

  /** The table has a handler for this pattern and method. */
  predicate Registered(route: string, verb: string) {
    route in Routes && verb in Routes[route]
  }

  /** The handler the guard lets through, if any. */
  function Lookup(verb: string, url: string): (h: Option<Handler>)
    ensures h.Some? <==> Registered(GetRequestRoute(url), verb)
    ensures h.Some? ==> h.value == Routes[GetRequestRoute(url)][verb]
    ensures h.Some? ==> Served(Segments(url))
  {
    var route := GetRequestRoute(url);
    if Registered(route, verb) then Some(Routes[route][verb]) else None
  }

  /** The request will not stop on a TypeError inside a delete handler. */
  predicate Completes(s: Store, verb: string, url: string) {
    && (Lookup(verb, url) == Some(DeleteArticle) ==>
          var id := Handlers.PathId(url);
          ArticleAt(s, id).Some? ==> Handlers.CascadeSafe(s, ArticleAt(s, id).value))
    && (Lookup(verb, url) == Some(DeleteComment) ==>
          Handlers.ArticleOfCommentLive(s, Handlers.RawPathId(url)))
  }

  function Run(s: Store, h: Handler, url: string, p: Payload): (r: (Store, Response))
    requires h == DeleteArticle ==>
      var id := Handlers.PathId(url);
      ArticleAt(s, id).Some? ==> Handlers.CascadeSafe(s, ArticleAt(s, id).value)
    requires h == DeleteComment ==> Handlers.ArticleOfCommentLive(s, Handlers.RawPathId(url))
    ensures r.0.nextArticleId >= s.nextArticleId && r.0.nextCommentId >= s.nextCommentId
    ensures r.0.users.Keys >= s.users.Keys
    ensures r.0.articles.Keys >= s.articles.Keys && r.0.comments.Keys >= s.comments.Keys
  {
    match h
    case GetOrCreateUser => Handlers.GetOrCreateUser(s, p)
    case GetUser => Handlers.GetUser(s, url)
    case GetArticles => Handlers.GetArticles(s)
    case CreateArticle => Handlers.CreateArticle(s, p)
    case GetArticle => Handlers.GetArticle(s, url)
    case UpdateArticle => Handlers.UpdateArticle(s, url, p)
    case DeleteArticle => Handlers.DeleteArticle(s, url)
    case UpvoteArticle => Handlers.VoteArticle(s, url, p, Up)
    case DownvoteArticle => Handlers.VoteArticle(s, url, p, Down)
    case CreateComment => Handlers.CreateComment(s, p)
    case UpdateComment => Handlers.UpdateComment(s, url, p)
    case DeleteComment => Handlers.DeleteComment(s, url)
    case UpvoteComment => Handlers.VoteComment(s, url, p, Up)
    case DownvoteComment => Handlers.VoteComment(s, url, p, Down)
  }

  /** `requestHandler` minus transport: a preflight OPTIONS request is
      answered 200 before routing; an unknown pattern or method is a bare
      400 that runs no handler; otherwise the handler's descriptor is the
      answer. GET and DELETE handlers receive no request body. */
  function Dispatch(s: Store, verb: string, url: string, p: Payload): (r: (Store, Response))
    requires Completes(s, verb, url)
    ensures verb == "OPTIONS" ==> r == (s, Reject(Ok))
    ensures verb != "OPTIONS" && !Registered(GetRequestRoute(url), verb) ==> r == (s, Reject(BadRequest))
    ensures verb != "OPTIONS" && Registered(GetRequestRoute(url), verb) ==>
      r == Run(s, Routes[GetRequestRoute(url)][verb], url, if verb == "GET" || verb == "DELETE" then NoPayload else p)
    ensures r.0.nextArticleId >= s.nextArticleId && r.0.nextCommentId >= s.nextCommentId
    ensures r.0.users.Keys >= s.users.Keys
    ensures r.0.articles.Keys >= s.articles.Keys && r.0.comments.Keys >= s.comments.Keys
  {
    if verb == "OPTIONS" then (s, Reject(Ok))
    else match Lookup(verb, url)
      case None => (s, Reject(BadRequest))
      case Some(h) => Run(s, h, url, if verb == "GET" || verb == "DELETE" then NoPayload else p)
  }

  // -----------------------------------------------------------------------
  // Which urls are served
  // -----------------------------------------------------------------------

  predicate IsResource(w: string) {
    w == "users" || w == "articles" || w == "comments"
  }

  /** The urls the table has a pattern for, by the shape of their
      segments: a bare resource; a vote on an article or comment (a third
      segment `upvote` or `downvote`); or a resource followed by a
      parameter, with any further segments ignored. */
  predicate Served(seg: seq<string>) {
    || (|seg| == 1 && IsResource(seg[0]))
    || (|seg| >= 3 && (seg[2] == "upvote" || seg[2] == "downvote") && (seg[0] == "articles" || seg[0] == "comments"))
    || (|seg| >= 2 && !(|seg| >= 3 && (seg[2] == "upvote" || seg[2] == "downvote")) && IsResource(seg[0]))
  }

  /** Reading the middle of `pre + w + post`. */
  lemma Unwrap(pre: string, w: string, post: string, key: string)
    requires pre + w + post == key
    ensures |pre| + |post| <= |key|
    ensures key[..|pre|] == pre && key[|key| - |post|..] == post
    ensures w == key[|pre|..|key| - |post|]
  {
    assert key[..|pre|] == (pre + w + post)[..|pre|];
  }

  /** The middle of `pre + w + post` determines the whole. */
  lemma MiddleInjective(pre: string, w: string, v: string, post: string)
    ensures pre + w + post == pre + v + post ==> w == v
  {
    if pre + w + post == pre + v + post {
      Unwrap(pre, w, post, pre + v + post);
      Unwrap(pre, v, post, pre + v + post);
    }
  }

  /** A lone segment `w` is routed to `/w`, a pattern of the table exactly
      when `w` names a resource. */
  lemma OneSegmentSpelled()
    ensures "/" + "users" + "" == "/users"
    ensures "/" + "articles" + "" == "/articles"
    ensures "/" + "comments" + "" == "/comments"
    ensures "/" + "users" == "/users" && "/" + "articles" == "/articles" && "/" + "comments" == "/comments"
  {
  }

  lemma OneSegmentUnknown(w: string)
    requires '/' !in w
    requires !(IsResource(w))
    ensures "/" + w !in Patterns
  {
    var key := "/" + w + "";
    OneSegmentSpelled();
    assert key == "/" + w;
    MiddleInjective("/", w, "users", "");
    assert key != "/users/:username" by {
      assert "/users/:username"[6] == '/';
      assert |key| == |"/users/:username"| ==> key[6] == w[5];
    }
    MiddleInjective("/", w, "articles", "");
    assert key != "/articles/:id" by {
      assert "/articles/:id"[9] == '/';
      assert |key| == |"/articles/:id"| ==> key[9] == w[8];
    }
    assert key != "/articles/:id/upvote" by {
      assert "/articles/:id/upvote"[9] == '/';
      assert |key| == |"/articles/:id/upvote"| ==> key[9] == w[8];
    }
    assert key != "/articles/:id/downvote" by {
      assert "/articles/:id/downvote"[9] == '/';
      assert |key| == |"/articles/:id/downvote"| ==> key[9] == w[8];
    }
    MiddleInjective("/", w, "comments", "");
    assert key != "/comments/:id" by {
      assert "/comments/:id"[9] == '/';
      assert |key| == |"/comments/:id"| ==> key[9] == w[8];
    }
    assert key != "/comments/:id/upvote" by {
      assert "/comments/:id/upvote"[9] == '/';
      assert |key| == |"/comments/:id/upvote"| ==> key[9] == w[8];
    }
    assert key != "/comments/:id/downvote" by {
      assert "/comments/:id/downvote"[9] == '/';
      assert |key| == |"/comments/:id/downvote"| ==> key[9] == w[8];
    }
  }

  lemma OneSegmentRoute(w: string)
    requires '/' !in w
    ensures "/" + w in Patterns <==> IsResource(w)
  {
    if IsResource(w) {
      OneSegmentSpelled();
    } else {
      OneSegmentUnknown(w);
    }
  }

  /** `/w/:id` is a pattern of the table exactly when `w` is `articles` or
      `comments`; likewise `/w/:id/upvote` and `/w/:id/downvote`. */
  lemma ItemSpelled()
    ensures "/" + "articles" + "/:id" == "/articles/:id"
    ensures "/" + "comments" + "/:id" == "/comments/:id"
  {
  }

  lemma ItemUnknown(w: string)
    requires !(w == "articles" || w == "comments")
    ensures "/" + w + "/:id" !in Patterns
  {
    var key := "/" + w + "/:id";
    ItemSpelled();
    assert key[|key| - 4] == '/';
    assert key != "/users" by { assert "/users"[2] == 's'; }
    assert key != "/users/:username" by { assert "/users/:username"[12] == 'n'; }
    assert key != "/articles" by { assert "/articles"[5] == 'c'; }
    MiddleInjective("/", w, "articles", "/:id");
    assert key != "/articles/:id/upvote" by { assert "/articles/:id/upvote"[16] == 'v'; }
    assert key != "/articles/:id/downvote" by { assert "/articles/:id/downvote"[18] == 'v'; }
    assert key != "/comments" by { assert "/comments"[5] == 'e'; }
    MiddleInjective("/", w, "comments", "/:id");
    assert key != "/comments/:id/upvote" by { assert "/comments/:id/upvote"[16] == 'v'; }
    assert key != "/comments/:id/downvote" by { assert "/comments/:id/downvote"[18] == 'v'; }
  }

  lemma ItemRoute(w: string)
    ensures "/" + w + "/:id" in Patterns <==> w == "articles" || w == "comments"
  {
    if w == "articles" || w == "comments" {
      ItemSpelled();
    } else {
      ItemUnknown(w);
    }
  }

  lemma UpvoteSpelled()
    ensures "/" + "articles" + "/:id/upvote" == "/articles/:id/upvote"
    ensures "/" + "comments" + "/:id/upvote" == "/comments/:id/upvote"
  {
  }

  lemma UpvoteUnknown(w: string)
    requires !(w == "articles" || w == "comments")
    ensures "/" + w + "/:id/upvote" !in Patterns
  {
    var key := "/" + w + "/:id/upvote";
    UpvoteSpelled();
    assert key[|key| - 11] == '/';
    assert key != "/users" by { assert |"/users"| == 6; }
    assert key != "/users/:username" by { assert "/users/:username"[5] == 's'; }
    assert key != "/articles" by { assert |"/articles"| == 9; }
    assert key != "/articles/:id" by { assert "/articles/:id"[2] == 'r'; }
    MiddleInjective("/", w, "articles", "/:id/upvote");
    assert key != "/articles/:id/downvote" by { assert "/articles/:id/downvote"[11] == 'i'; }
    assert key != "/comments" by { assert |"/comments"| == 9; }
    assert key != "/comments/:id" by { assert "/comments/:id"[2] == 'o'; }
    MiddleInjective("/", w, "comments", "/:id/upvote");
    assert key != "/comments/:id/downvote" by { assert "/comments/:id/downvote"[11] == 'i'; }
  }

  lemma UpvoteRoute(w: string)
    ensures "/" + w + "/:id/upvote" in Patterns <==> w == "articles" || w == "comments"
  {
    if w == "articles" || w == "comments" {
      UpvoteSpelled();
    } else {
      UpvoteUnknown(w);
    }
  }

  lemma DownvoteSpelled()
    ensures "/" + "articles" + "/:id/downvote" == "/articles/:id/downvote"
    ensures "/" + "comments" + "/:id/downvote" == "/comments/:id/downvote"
  {
  }

  lemma DownvoteUnknown(w: string)
    requires !(w == "articles" || w == "comments")
    ensures "/" + w + "/:id/downvote" !in Patterns
  {
    var key := "/" + w + "/:id/downvote";
    DownvoteSpelled();
    assert key[|key| - 13] == '/';
    assert key != "/users" by { assert |"/users"| == 6; }
    assert key != "/users/:username" by { assert "/users/:username"[3] == 'e'; }
    assert key != "/articles" by { assert |"/articles"| == 9; }
    assert key != "/articles/:id" by { assert |"/articles/:id"| == 13; }
    assert key != "/articles/:id/upvote" by { assert "/articles/:id/upvote"[7] == 'e'; }
    MiddleInjective("/", w, "articles", "/:id/downvote");
    assert key != "/comments" by { assert |"/comments"| == 9; }
    assert key != "/comments/:id" by { assert |"/comments/:id"| == 13; }
    assert key != "/comments/:id/upvote" by { assert "/comments/:id/upvote"[7] == 't'; }
    MiddleInjective("/", w, "comments", "/:id/downvote");
  }

  lemma DownvoteRoute(w: string)
    ensures "/" + w + "/:id/downvote" in Patterns <==> w == "articles" || w == "comments"
  {
    if w == "articles" || w == "comments" {
      DownvoteSpelled();
    } else {
      DownvoteUnknown(w);
    }
  }

  /** `/w/:id/<action>` is a pattern of the table exactly when `w` is
      `articles` or `comments`. */
  lemma VoteRoute(w: string, action: string)
    requires action == "upvote" || action == "downvote"
    ensures "/" + w + "/:id/" + action in Patterns <==> w == "articles" || w == "comments"
  {
    if action == "upvote" {
      UpvoteRoute(w);
      assert "/" + w + "/:id/" + action == "/" + w + "/:id/upvote";
    } else {
      DownvoteRoute(w);
      assert "/" + w + "/:id/" + action == "/" + w + "/:id/downvote";
    }
  }

  /** The four branches of `getRequestRoute`, each against `Served`. */
  lemma RouteOfKnownIffServed(seg: seq<string>)
    requires forall i :: 0 <= i < |seg| ==> seg[i] != "" && '/' !in seg[i]
    ensures RouteOf(seg) in Routes <==> Served(seg)
  {
    PatternsAreRoutes();
    if |seg| == 1 {
      OneSegmentCase(seg);
    } else if IsVote(At(seg, 2)) {
      VoteCase(seg);
    } else if At(seg, 0) == Some("users") {
      UserCase(seg);
    } else {
      ItemCase(seg);
    }
  }

  lemma OneSegmentCase(seg: seq<string>)
    requires |seg| == 1 && '/' !in seg[0]
    ensures RouteOf(seg) in Patterns <==> Served(seg)
  {
    OneSegmentRoute(seg[0]);
  }

  lemma VoteCase(seg: seq<string>)
    requires |seg| != 1 && IsVote(At(seg, 2))
    ensures RouteOf(seg) in Patterns <==> Served(seg)
  {
    VoteRoute(seg[0], seg[2]);
  }

  lemma UserCase(seg: seq<string>)
    requires |seg| != 1 && !IsVote(At(seg, 2)) && At(seg, 0) == Some("users")
    ensures RouteOf(seg) in Patterns <==> Served(seg)
  {
    assert "/" + "users" + "/:username" == "/users/:username";
  }

  lemma ItemCase(seg: seq<string>)
    requires |seg| != 1 && !IsVote(At(seg, 2)) && At(seg, 0) != Some("users")
    ensures RouteOf(seg) in Patterns <==> Served(seg)
  {
    ItemRoute(ToStr(At(seg, 0)));
  }

  /** The url a client builds for item `n` of a resource: `/<resource>/<n>`,
      extended by `/<action>` when an action is given. */
  function ItemUrl(resource: string, n: nat, action: Option<string>): string {
    "/" + resource + "/" + DecimalString(n) + (if action.Some? then "/" + action.value else "")
  }

  /** The segments of `ItemUrl(resource, n, action)`. */
  function ItemSegments(resource: string, n: nat, action: Option<string>): seq<string> {
    [resource, DecimalString(n)] + (if action.Some? then [action.value] else [])
  }

  lemma ItemUrlSegments(resource: string, n: nat, action: Option<string>)
    requires resource != "" && '/' !in resource
    requires action.Some? ==> action.value != "" && '/' !in action.value
    ensures Segments(ItemUrl(resource, n, action)) == ItemSegments(resource, n, action)
    ensures Split(ItemUrl(resource, n, action)) == [""] + ItemSegments(resource, n, action)
  {
    var seg := ItemSegments(resource, n, action);
    DecimalSlashFree(n);
    ItemUrlIsPath(resource, n, action);
    SegmentsOfPath(seg);
    SplitPath(seg);
  }

  lemma ItemUrlIsPath(resource: string, n: nat, action: Option<string>)
    ensures ItemUrl(resource, n, action) == Path(ItemSegments(resource, n, action))
  {
    var d := DecimalString(n);
    var seg := ItemSegments(resource, n, action);
    var tail := if action.Some? then "/" + action.value else "";
    assert Path(seg[2..]) == tail by {
      if action.Some? {
        assert seg[2..] == [action.value];
        assert Path(seg[3..]) == "";
      } else {
        assert seg[2..] == [];
      }
    }
    assert Path(seg[1..]) == "/" + d + Path(seg[2..]);
    assert Path(seg) == "/" + resource + Path(seg[1..]);
  }

  lemma DecimalSlashFree(n: nat)
    ensures '/' !in DecimalString(n)
  {
    var d := DecimalString(n);
    forall i | 0 <= i < |d|
      ensures d[i] != '/'
    {
      assert IsDigit(d[i]);
    }
  }

  /** Splitting a path built from slash-free segments gives an empty piece
      followed by those segments. */
  lemma {:induction false} SplitPath(seg: seq<string>)
    requires |seg| >= 1
    requires forall i :: 0 <= i < |seg| ==> '/' !in seg[i]
    ensures Split(Path(seg)) == [""] + seg
  {
    var tail := Path(seg[1..]);
    SplitPrefix(seg[0], tail);
    assert Path(seg) == "/" + (seg[0] + tail);
    assert Split(Path(seg)) == [""] + Split(seg[0] + tail);
    if |seg| == 1 {
      assert tail == "";
      assert Split(tail) == [""];
      assert seg[0] + "" == seg[0];
    } else {
      SplitPath(seg[1..]);
      var rest := Split(tail);
      assert rest == [""] + seg[1..];
      assert seg[0] + rest[0] == seg[0];
      assert seg == [seg[0]] + seg[1..];
    }
  }

  /** A request for `/articles/<n>` or `/comments/<n>` (optionally with a
      vote action) reaches the handler the table names, and every handler
      reads the id `n` back from the url -- `deleteComment`'s unfiltered
      reading included. */
  lemma ItemUrlRoutes(resource: string, n: nat, action: Option<string>)
    requires resource == "articles" || resource == "comments"
    requires action.None? || action == Some("upvote") || action == Some("downvote")
    ensures var url := ItemUrl(resource, n, action);
      && GetRequestRoute(url) == "/" + resource + "/:id" + (if action.Some? then "/" + action.value else "")
      && Handlers.PathId(url) == n
      && Handlers.RawPathId(url) == n
  {
    var seg := ItemSegments(resource, n, action);
    ItemUrlSegments(resource, n, action);
    NumberOfDecimal(n);
    ItemRouteOf(resource, n, action);
    assert At(seg, 1) == Some(DecimalString(n));
    assert At([""] + seg, 2) == Some(DecimalString(n));
  }

  lemma ItemRouteOf(resource: string, n: nat, action: Option<string>)
    requires resource == "articles" || resource == "comments"
    requires action.None? || action == Some("upvote") || action == Some("downvote")
    ensures RouteOf(ItemSegments(resource, n, action)) ==
      "/" + resource + "/:id" + (if action.Some? then "/" + action.value else "")
  {
    var seg := ItemSegments(resource, n, action);
    if action.Some? {
      assert seg[0] == resource && seg[2] == action.value;
      assert "/" + resource + "/:id/" + action.value == "/" + resource + "/:id" + ("/" + action.value);
    } else {
      assert seg == [resource, DecimalString(n)];
      assert "/" + resource + "/:id" + "" == "/" + resource + "/:id";
    }
  }

  // -----------------------------------------------------------------------
  // The table, request by request
  // -----------------------------------------------------------------------

  /** The table's rows, one pattern at a time. */
  lemma RoutesRows()
    ensures Routes["/users"] == map["POST" := GetOrCreateUser]
    ensures Routes["/users/:username"] == map["GET" := GetUser]
    ensures Routes["/articles"] == map["GET" := GetArticles, "POST" := CreateArticle]
    ensures Routes["/articles/:id"] == map["GET" := GetArticle, "PUT" := UpdateArticle, "DELETE" := DeleteArticle]
    ensures Routes["/articles/:id/upvote"] == map["PUT" := UpvoteArticle]
    ensures Routes["/articles/:id/downvote"] == map["PUT" := DownvoteArticle]
    ensures Routes["/comments"] == map["POST" := CreateComment]
    ensures Routes["/comments/:id"] == map["PUT" := UpdateComment, "DELETE" := DeleteComment]
    ensures Routes["/comments/:id/upvote"] == map["PUT" := UpvoteComment]
    ensures Routes["/comments/:id/downvote"] == map["PUT" := DownvoteComment]
  {
  }

  /** One lemma per row of the table: for a url whose pattern is the
      row's, the methods the row lists reach their handlers and every other
      method gets the bare 400. */
  lemma UsersRow(url: string)
    requires GetRequestRoute(url) == "/users"
    ensures forall verb :: Lookup(verb, url) == (if verb == "POST" then Some(GetOrCreateUser) else None)
  {
    RoutesRows();
  }

  lemma UserRow(url: string)
    requires GetRequestRoute(url) == "/users/:username"
    ensures forall verb :: Lookup(verb, url) == (if verb == "GET" then Some(GetUser) else None)
  {
    RoutesRows();
  }

  lemma ArticlesRow(url: string)
    requires GetRequestRoute(url) == "/articles"
    ensures forall verb :: Lookup(verb, url) == (if verb == "GET" then Some(GetArticles) else if verb == "POST" then Some(CreateArticle) else None)
  {
    RoutesRows();
  }

  lemma ArticleRow(url: string)
    requires GetRequestRoute(url) == "/articles/:id"
    ensures forall verb :: Lookup(verb, url) == (if verb == "GET" then Some(GetArticle) else if verb == "PUT" then Some(UpdateArticle) else if verb == "DELETE" then Some(DeleteArticle) else None)
  {
    RoutesRows();
  }

  lemma ArticleUpvoteRow(url: string)
    requires GetRequestRoute(url) == "/articles/:id/upvote"
    ensures forall verb :: Lookup(verb, url) == (if verb == "PUT" then Some(UpvoteArticle) else None)
  {
    RoutesRows();
  }

  lemma ArticleDownvoteRow(url: string)
    requires GetRequestRoute(url) == "/articles/:id/downvote"
    ensures forall verb :: Lookup(verb, url) == (if verb == "PUT" then Some(DownvoteArticle) else None)
  {
    RoutesRows();
  }

  lemma CommentsRow(url: string)
    requires GetRequestRoute(url) == "/comments"
    ensures forall verb :: Lookup(verb, url) == (if verb == "POST" then Some(CreateComment) else None)
  {
    RoutesRows();
  }

  lemma CommentRow(url: string)
    requires GetRequestRoute(url) == "/comments/:id"
    ensures forall verb :: Lookup(verb, url) == (if verb == "PUT" then Some(UpdateComment) else if verb == "DELETE" then Some(DeleteComment) else None)
  {
    RoutesRows();
  }

  lemma CommentUpvoteRow(url: string)
    requires GetRequestRoute(url) == "/comments/:id/upvote"
    ensures forall verb :: Lookup(verb, url) == (if verb == "PUT" then Some(UpvoteComment) else None)
  {
    RoutesRows();
  }

  lemma CommentDownvoteRow(url: string)
    requires GetRequestRoute(url) == "/comments/:id/downvote"
    ensures forall verb :: Lookup(verb, url) == (if verb == "PUT" then Some(DownvoteComment) else None)
  {
    RoutesRows();
  }

  /** The collection urls `/users`, `/articles` and `/comments`. */
  lemma CollectionRoute(w: string)
    requires IsResource(w)
    ensures GetRequestRoute("/" + w) == "/" + w
  {
    assert [w][1..] == [];
    assert Path([w]) == "/" + w + "";
    assert "/" + w + "" == "/" + w;
    SegmentsOfPath([w]);
  }

  lemma UsersRoute()
    ensures GetRequestRoute("/users") == "/users"
  {
    OneSegmentSpelled();
    CollectionRoute("users");
  }

  lemma ArticlesRoute()
    ensures GetRequestRoute("/articles") == "/articles"
  {
    OneSegmentSpelled();
    CollectionRoute("articles");
  }

  lemma CommentsRoute()
    ensures GetRequestRoute("/comments") == "/comments"
  {
    OneSegmentSpelled();
    CollectionRoute("comments");
  }

  /** Which handler answers each method on a collection url; the methods
      the table does not list get the bare 400. */
  lemma UsersRequests()
    ensures Lookup("POST", "/users") == Some(GetOrCreateUser)
    ensures Lookup("GET", "/users") == None
  {
    UsersRoute();
    UsersRow("/users");
  }

  lemma ArticlesRequests()
    ensures Lookup("GET", "/articles") == Some(GetArticles)
    ensures Lookup("POST", "/articles") == Some(CreateArticle)
    ensures Lookup("PUT", "/articles") == None
  {
    ArticlesRoute();
    ArticlesRow("/articles");
  }

  lemma CommentsRequests()
    ensures Lookup("POST", "/comments") == Some(CreateComment)
    ensures Lookup("GET", "/comments") == None
  {
    CommentsRoute();
    CommentsRow("/comments");
  }

  /** `/users/<name>` is answered by `getUser` for GET only, and the
      handler reads `name` back. */
  lemma UserRequests(name: string)
    requires name != "" && '/' !in name
    ensures var url := "/users/" + name;
      && At(Segments(url), 1) == Some(name)
      && Lookup("GET", url) == Some(GetUser)
      && Lookup("POST", url) == None
      && Lookup("PUT", url) == None
      && Lookup("DELETE", url) == None
  {
    var url := "/users/" + name;
    var seg := ["users", name];
    assert seg[1..][1..] == [];
    assert Path(seg[1..]) == "/" + name + "";
    assert Path(seg) == "/" + "users" + ("/" + name + "");
    assert url == Path(seg);
    SegmentsOfPath(seg);
    assert RouteOf(seg) == "/" + "users" + "/:username";
    assert "/" + "users" + "/:username" == "/users/:username";
    UserRow(url);
  }

  /** `/articles/<n>` is answered by `getArticle`, `updateArticle` and
      `deleteArticle`, and its vote urls by the two vote handlers. */
  lemma ArticleRequests(n: nat)
    ensures var item := ItemUrl("articles", n, None);
      && Lookup("GET", item) == Some(GetArticle)
      && Lookup("PUT", item) == Some(UpdateArticle)
      && Lookup("DELETE", item) == Some(DeleteArticle)
      && Lookup("POST", item) == None
    ensures Lookup("PUT", ItemUrl("articles", n, Some("upvote"))) == Some(UpvoteArticle)
    ensures Lookup("PUT", ItemUrl("articles", n, Some("downvote"))) == Some(DownvoteArticle)
    ensures Lookup("GET", ItemUrl("articles", n, Some("upvote"))) == None
  {
    ItemUrlRoutes("articles", n, None);
    ItemUrlRoutes("articles", n, Some("upvote"));
    ItemUrlRoutes("articles", n, Some("downvote"));
    ItemPatternsSpelled();
    ArticleRow(ItemUrl("articles", n, None));
    ArticleUpvoteRow(ItemUrl("articles", n, Some("upvote")));
    ArticleDownvoteRow(ItemUrl("articles", n, Some("downvote")));
  }

  /** `/comments/<n>` is answered by `updateComment` and `deleteComment`
      -- there is no GET for a single comment -- and its vote urls by the
      two vote handlers. */
  lemma CommentRequests(n: nat)
    ensures var item := ItemUrl("comments", n, None);
      && Lookup("GET", item) == None
      && Lookup("PUT", item) == Some(UpdateComment)
      && Lookup("DELETE", item) == Some(DeleteComment)
      && Lookup("POST", item) == None
    ensures Lookup("PUT", ItemUrl("comments", n, Some("upvote"))) == Some(UpvoteComment)
    ensures Lookup("PUT", ItemUrl("comments", n, Some("downvote"))) == Some(DownvoteComment)
    ensures Lookup("DELETE", ItemUrl("comments", n, Some("upvote"))) == None
  {
    ItemUrlRoutes("comments", n, None);
    ItemUrlRoutes("comments", n, Some("upvote"));
    ItemUrlRoutes("comments", n, Some("downvote"));
    ItemPatternsSpelled();
    CommentRow(ItemUrl("comments", n, None));
    CommentUpvoteRow(ItemUrl("comments", n, Some("upvote")));
    CommentDownvoteRow(ItemUrl("comments", n, Some("downvote")));
  }

  lemma ItemPatternsSpelled()
    ensures "/" + "articles" + "/:id" + "" == "/articles/:id"
    ensures "/" + "articles" + "/:id" + ("/" + "upvote") == "/articles/:id/upvote"
    ensures "/" + "articles" + "/:id" + ("/" + "downvote") == "/articles/:id/downvote"
    ensures "/" + "comments" + "/:id" + "" == "/comments/:id"
    ensures "/" + "comments" + "/:id" + ("/" + "upvote") == "/comments/:id/upvote"
    ensures "/" + "comments" + "/:id" + ("/" + "downvote") == "/comments/:id/downvote"
  {
  }

  // -----------------------------------------------------------------------
  // Longer paths
  // -----------------------------------------------------------------------

  /** Any path of two or more segments whose third segment is not a vote
      lands on `/<first>/:id` (`/users/:username` for users), however many
      segments follow the id. */
  lemma LongPathRoute(seg: seq<string>)
    requires |seg| >= 2 && !IsVote(At(seg, 2))
    ensures RouteOf(seg) == if seg[0] == "users" then "/users/:username" else "/" + seg[0] + "/:id"
  {
    if seg[0] == "users" {
      assert "/" + "users" + "/:username" == "/users/:username";
    }
  }

  /** The segments of `/articles/1/x/y`. */
  lemma DeepArticleRoute()
    ensures Segments("/articles/1/x/y") == ["articles", "1", "x", "y"]
    ensures GetRequestRoute("/articles/1/x/y") == "/articles/:id"
  {
    var seg := ["articles", "1", "x", "y"];
    assert Path(seg[3..]) == "/y" by {
      assert seg[3..][1..] == [];
    }
    assert Path(seg[2..]) == "/x/y" by {
      assert seg[2..][1..] == seg[3..];
    }
    assert Path(seg[1..]) == "/1/x/y" by {
      assert seg[1..][1..] == seg[2..];
    }
    assert Path(seg) == "/articles/1/x/y";
    SegmentsOfPath(seg);
    LongPathRoute(seg);
    assert "/" + "articles" + "/:id" == "/articles/:id";
  }

  /** `GET /articles/1/x/y` is not stopped by the guard: it reaches
      `getArticle`, which reads id 1. */
  lemma DeepArticlePath()
    ensures Lookup("GET", "/articles/1/x/y") == Some(GetArticle)
    ensures Handlers.PathId("/articles/1/x/y") == 1
  {
    DeepArticleRoute();
    ArticleRow("/articles/1/x/y");
    ReadsOne(At(Segments("/articles/1/x/y"), 1));
  }

  lemma ReadsOne(o: Option<string>)
    requires o == Some("1")
    ensures NumberOf(o) == 1
  {
    NumberOfDecimal(1);
    assert DecimalString(1) == ['0' + 1 as char] == "1";
  }
}

=== FILE: voting.dfy ===
/**
  The shared vote helpers `upvote` and `downvote` (server.js lines
  256-274). Each withdraws the voter's opposite vote, if any, with
  `splice(indexOf(username), 1)`, and records the new vote unless it is
  already there.
*/
module Voting {
  import opened Js
  import opened Model

  /** How many times `u` occurs in `s`. */
  function Occurrences(s: seq<string>, u: string): nat {
    multiset(s)[u]
  }

  /** Every voter holds at most one vote on the item: nobody is listed
      twice in a list or in both lists. */
  predicate Exclusive(v: Votes) {
    && Distinct(v.upvotedBy)
    && Distinct(v.downvotedBy)
    && forall u :: u in v.upvotedBy ==> u !in v.downvotedBy
  }

  /** `upvote(item, username)`. */
  function Upvote(v: Votes, u: string): (r: Votes)
    ensures u in r.upvotedBy
    ensures r.upvotedBy == if u in v.upvotedBy then v.upvotedBy else v.upvotedBy + [u]
    ensures u in v.downvotedBy ==>
      var i := IndexOf(v.downvotedBy, u);
      r.downvotedBy == v.downvotedBy[..i] + v.downvotedBy[i + 1..]
    ensures u in v.downvotedBy ==> multiset(r.downvotedBy) == multiset(v.downvotedBy) - multiset{u}
    ensures u !in v.downvotedBy ==> r.downvotedBy == v.downvotedBy
  {
    var down :=
      if u in v.downvotedBy then
        RemovePresent(v.downvotedBy, u);
        SpliceOne(v.downvotedBy, IndexOf(v.downvotedBy, u))
      else v.downvotedBy;
    var up := if u in v.upvotedBy then v.upvotedBy else v.upvotedBy + [u];
    Votes(up, down)
  }

  /** `downvote(item, username)`, the mirror image of `Upvote`: swapping the
      two lists turns one into the other. */
  function Downvote(v: Votes, u: string): (r: Votes)
    ensures r == Mirror(Upvote(Mirror(v), u))
    ensures u in r.downvotedBy
    ensures r.downvotedBy == if u in v.downvotedBy then v.downvotedBy else v.downvotedBy + [u]
    ensures u in v.upvotedBy ==>
      var i := IndexOf(v.upvotedBy, u);
      r.upvotedBy == v.upvotedBy[..i] + v.upvotedBy[i + 1..]
    ensures u in v.upvotedBy ==> multiset(r.upvotedBy) == multiset(v.upvotedBy) - multiset{u}
    ensures u !in v.upvotedBy ==> r.upvotedBy == v.upvotedBy
  {
    var up :=
      if u in v.upvotedBy then
        RemovePresent(v.upvotedBy, u);
        SpliceOne(v.upvotedBy, IndexOf(v.upvotedBy, u))
      else v.upvotedBy;
    var down := if u in v.downvotedBy then v.downvotedBy else v.downvotedBy + [u];
    Votes(up, down)
  }

  /** Recording a vote can only withdraw the voter's own opposite vote:
      every other voter keeps exactly the votes they had. */
  lemma UpvoteKeepsOthers(v: Votes, u: string, w: string)
    requires w != u
    ensures var r := Upvote(v, u);
      && (w in r.upvotedBy <==> w in v.upvotedBy)
      && (w in r.downvotedBy <==> w in v.downvotedBy)
      && Occurrences(r.upvotedBy, w) == Occurrences(v.upvotedBy, w)
      && Occurrences(r.downvotedBy, w) == Occurrences(v.downvotedBy, w)
  {
  }

  /** A voter listed at most once across both lists ends up listed in
      `upvotedBy` and not in `downvotedBy`. */
  lemma UpvoteSettles(v: Votes, u: string)
    requires Occurrences(v.upvotedBy + v.downvotedBy, u) <= 1
    ensures u in Upvote(v, u).upvotedBy && u !in Upvote(v, u).downvotedBy
  {
    assert multiset(v.upvotedBy + v.downvotedBy) == multiset(v.upvotedBy) + multiset(v.downvotedBy);
  }

  /** Upvoting twice is upvoting once, unless the voter was listed more than
      once among the down-votes (each call withdraws only one copy). */
  lemma UpvoteIdempotent(v: Votes, u: string)
    requires Occurrences(v.downvotedBy, u) <= 1
    ensures Upvote(Upvote(v, u), u) == Upvote(v, u)
  {
    var r := Upvote(v, u);
    assert u !in r.downvotedBy by {
      if u in v.downvotedBy {
        assert multiset(r.downvotedBy)[u] == 0;
      }
    }
  }

  /** Two down-votes by one voter are withdrawn one upvote at a time. */
  lemma UpvoteNotIdempotentOnDuplicates()
    ensures var v := Votes([], ["ann", "ann"]);
      Upvote(Upvote(v, "ann"), "ann") != Upvote(v, "ann")
  {
    var v := Votes([], ["ann", "ann"]);
    assert IndexOf(["ann", "ann"], "ann") == 0;
    assert SpliceOne(["ann", "ann"], 0) == ["ann"];
    var once := Upvote(v, "ann");
    assert once.downvotedBy == ["ann"];
    assert IndexOf(["ann"], "ann") == 0;
    assert SpliceOne(["ann"], 0) == [];
    assert Upvote(once, "ann").downvotedBy == [];
  }

  /** The one-vote-per-voter invariant survives an upvote. */
  lemma UpvoteKeepsExclusive(v: Votes, u: string)
    requires Exclusive(v)
    ensures Exclusive(Upvote(v, u))
  {
    var r := Upvote(v, u);
    if u in v.downvotedBy {
      RemoveDistinct(v.downvotedBy, u);
    }
    forall w | w in r.upvotedBy
      ensures w !in r.downvotedBy
    {
      if w != u {
        UpvoteKeepsOthers(v, u, w);
      } else if u in v.downvotedBy {
        assert multiset(r.downvotedBy)[u] == 0;
      }
    }
  }

  /** Downvoting is the mirror image of upvoting, so it settles, is
      idempotent and keeps the invariant in the same way. */
  lemma DownvoteSettles(v: Votes, u: string)
    requires Occurrences(v.upvotedBy + v.downvotedBy, u) <= 1
    ensures u in Downvote(v, u).downvotedBy && u !in Downvote(v, u).upvotedBy
  {
    assert multiset(v.upvotedBy + v.downvotedBy) == multiset(v.downvotedBy + v.upvotedBy);
    UpvoteSettles(Mirror(v), u);
  }

  lemma DownvoteIdempotent(v: Votes, u: string)
    requires Occurrences(v.upvotedBy, u) <= 1
    ensures Downvote(Downvote(v, u), u) == Downvote(v, u)
  {
    UpvoteIdempotent(Mirror(v), u);
    assert Mirror(Mirror(Upvote(Mirror(v), u))) == Upvote(Mirror(v), u);
  }

  lemma DownvoteKeepsExclusive(v: Votes, u: string)
    requires Exclusive(v)
    ensures Exclusive(Downvote(v, u))
  {
    UpvoteKeepsExclusive(Mirror(v), u);
  }

  /** Voting the other way flips a single vote in one call: starting from a
      well-formed item, an upvote followed by a downvote by the same voter
      leaves that voter among the down-votes only, and the reverse order
      among the up-votes only. */
  lemma VoteFlips(v: Votes, u: string)
    requires Exclusive(v)
    ensures var r := Downvote(Upvote(v, u), u);
      u in r.downvotedBy && u !in r.upvotedBy
    ensures var r := Upvote(Downvote(v, u), u);
      u in r.upvotedBy && u !in r.downvotedBy
  {
    assert var r := Downvote(Upvote(v, u), u); u in r.downvotedBy && u !in r.upvotedBy by {
      var w := Upvote(v, u);
      UpvoteKeepsExclusive(v, u);
      DistinctOccurrences(w.upvotedBy, u);
      assert multiset(Downvote(w, u).upvotedBy)[u] == 0;
    }
    assert var r := Upvote(Downvote(v, u), u); u in r.upvotedBy && u !in r.downvotedBy by {
      var w := Downvote(v, u);
      DownvoteKeepsExclusive(v, u);
      DistinctOccurrences(w.downvotedBy, u);
      assert multiset(Upvote(w, u).downvotedBy)[u] == 0;
    }
  }

  /** A voter listed in a duplicate-free list is listed once. */
  lemma {:induction false} DistinctOccurrences(s: seq<string>, u: string)
    requires Distinct(s)
    ensures Occurrences(s, u) <= 1
  {
    if |s| > 0 {
      assert s == [s[0]] + s[1..];
      assert Distinct(s[1..]) by {
        forall i, j | 0 <= i < j < |s[1..]|
          ensures s[1..][i] != s[1..][j]
        {
          assert s[1..][i] == s[i + 1] && s[1..][j] == s[j + 1];
        }
      }
      DistinctOccurrences(s[1..], u);
      if s[0] == u {
        assert u !in s[1..] by {
          forall i | 0 <= i < |s[1..]|
            ensures s[1..][i] != u
          {
            assert s[1..][i] == s[i + 1];
          }
        }
      }
    }
  }

  /** The direction of a vote; mirrors swap the two lists. */
  datatype Direction = Up | Down

  function Cast(v: Votes, u: string, d: Direction): Votes {
    match d
    case Up => Upvote(v, u)
    case Down => Downvote(v, u)
  }

  /** On a well-formed item, casting the same vote twice is casting it
      once. */
  lemma CastIdempotent(v: Votes, u: string, d: Direction)
    requires Exclusive(v)
    ensures Cast(Cast(v, u, d), u, d) == Cast(v, u, d)
  {
    match d {
      case Up =>
        DistinctOccurrences(v.downvotedBy, u);
        UpvoteIdempotent(v, u);
      case Down =>
        DistinctOccurrences(v.upvotedBy, u);
        DownvoteIdempotent(v, u);
    }
  }

  /** Either vote keeps the one-vote-per-voter invariant. */
  lemma CastKeepsExclusive(v: Votes, u: string, d: Direction)
    requires Exclusive(v)
    ensures Exclusive(Cast(v, u, d))
  {
    match d {
      case Up => UpvoteKeepsExclusive(v, u);
      case Down => DownvoteKeepsExclusive(v, u);
    }
  }

  function Mirror(v: Votes): Votes {
    Votes(v.downvotedBy, v.upvotedBy)
  }
}
